=== FILE: README.md ===
# GPU cell lists of openfpm, as a sequential model

openfpm's `CellList_gpu` sorts particles into the cells of a uniform
(padded) grid. Fixed-radius neighbour queries then only have to visit
nearby cells. There are two variants:

- **Dense** (`CellList_gpu<..., false>`). Counting sort over the whole grid:
  1. per-cell counts with atomically handed-out local ranks;
  2. an exclusive scan into a prefix-sum table with one extra slot;
  3. a scatter of every active particle to `prefix[cell] + rank`.

  The cell-ordered array doubles as the sorted-to-unsorted map. Scattering
  it back gives the unsorted-to-sorted map. Marking the sorted slots whose
  particle is below the ghost marker, then scanning and compacting those
  marks, gives the list of domain slots.
- **Sparse** (`CellList_gpu<..., true>`). The cell id of every active
  particle goes into a sparse vector. The flush sorts the particles by cell
  and keeps one key per occupied cell, valued with the start of its segment.
  Each occupied cell is then given the list of particle ranges of its
  occupied box-stencil neighbours. The lists are laid out through a
  count / in-place exclusive scan / fill pipeline. The index maps and the
  domain list are derived as in the dense variant.

The model is sequential and functional. The builder's state is a datatype
with one field per class member. Each construction is a pure function of:

- that state;
- the particles' linear cell ids (`cellOf`);
- the local ranks the atomic counters or the flush handed out (`ranks`).

Any legal interleaving of the counters is allowed: `Counting.ValidRanks`
only asks that the particles of each cell receive the ranks `0..count-1`.
The GPU kernels are modelled by the functions they compute:

- `Counting.CellCounts` / `Counting.FillCellIndexLocalIndex` for
  `fill_cellIndex_LocalIndex`;
- `Placement.CellOrder` for `fill_cells`;
- `Domain.DomainSlots` for `mark_domain_particles` / `collect_domain_ghost_ids`;
- `SparseCells.Flush` for the sparse vector's flush;
- `SparseCells.NeighborLists` for `countNeighborCells` / `fillNeighborCellList`.

`Scan.ExclusiveScan` is the external `openfpm::scan`.

Modules, one per file:

- `Seqs`: shared sequence helpers.
- `Scan`: the exclusive scan.
- `Counting`: counts and ranks.
- `Placement`: the counting-sort placement and the index maps.
- `Domain`: the domain list.
- `Geometry` and `BuildInputs` (both in `geometry.dfy`): the box stencil and
  the construction arguments.
- `SparseVector`: the sparse vector the sparse builder uses.
- `SparseCells`: the flush and the neighbour table.
- `DenseCellList`: the dense builder.
- `SparseCellList`: the sparse builder.

Where the code and the written description of the system disagree, the
model follows the code:

- **Dense, empty input.** When `start == stop` (which covers `stop == 0`),
  or when the input is empty whatever `stop` says, the dense builder zeroes
  the count and prefix buffers, resizes the cell/local buffer to
  `stop - start` and returns early. The cell-ordered array, both index maps
  and the domain list keep their previous contents; they are not emptied
  (`DenseCellList.DenseConstructEmpty`).
- **Sparse, empty input.** The sparse builder returns early only for an
  empty input or `stop == 0`. Its thread count is `stop - start + 1`, which
  is never zero. With `0 < start == stop` the whole pipeline runs on an
  empty range (`SparseCellList.SparseConstructEmptyRange`).
- **`construct`'s ghost marker.** The `ghostMarker` argument of
  `construct` feeds the domain list. It is not stored in the `ghostMarker`
  member, so `get_gm` keeps returning what `set_gm` set.

## Model

| member | source | states |
|---|---|---|
| Scan.ExclusiveScan | src/NN/CellList/cuda/CellList_gpu.hpp:197-204 | the scan has the input's length, starts at 0, and each entry adds the previous input element to the previous entry |
| Scan.ScanLast | src/NN/CellList/cuda/CellList_gpu.hpp:197-204 | the last scan entry plus the last input is the total of the input |
| Scan.ScanMonotone | src/NN/CellList/cuda/CellList_gpu.hpp:197-204 | scan entries never decrease along the sequence |
| Scan.ScanPadded | src/NN/CellList/cuda/CellList_gpu.hpp:759-779 | scanning counts padded with one extra slot gives the input's scan followed by its total in the extra slot, which the builder reads back as the table size |
| Scan.ScanInPlace | src/NN/CellList/cuda/CellList_gpu.hpp:771-776 | the in-place scan (input and output the same buffer) leaves exactly the exclusive scan of the original contents |
| Scan.FlattenAt | src/NN/CellList/cuda/CellList_gpu.hpp:781-788 | element j of list k sits at offset scan[k] + j of the concatenated table |
| Seqs.ScatterSpec | src/NN/CellList/cuda/CellList_gpu.hpp:244-253 | a scatter writes value i at position idx[i] for every i, and leaves every position no index hits unchanged |
| Seqs.InjectiveOnto | src/NN/CellList/cuda/CellList_gpu.hpp:229-234 | n distinct slots, all below n, hit every slot below n |
| Seqs.FlattenLength | src/NN/CellList/cuda/CellList_gpu.hpp:778-788 | the concatenated table is as long as the sum of the list lengths |
| Seqs.FlattenBound | src/NN/CellList/cuda/CellList_gpu.hpp:778-788 | lists of at most b entries each concatenate to at most (number of lists) * b entries |
| Counting.CountBelowMonotone | src/NN/CellList/cuda/CellList_gpu.hpp:197-204 | the number of particles in cells below c grows with c |
| Counting.BucketBounds | src/NN/CellList/cuda/CellList_gpu.hpp:229-234 | the particles below cell c plus those in cell c are at most all particles, so every bucket fits in the array |
| Counting.CountHits | src/NN/CellList/cuda/CellList_gpu.hpp:185-195 | a cell has a positive count exactly when some particle lies in it |
| Counting.ScanOfCounts | src/NN/CellList/cuda/CellList_gpu.hpp:185-204 | the scan of the per-cell counts is, at every cell, the number of particles in lower cells |
| Counting.SequentialRanksValid | src/NN/CellList/cuda/CellList_gpu.hpp:185-195 | handing out ranks in particle order is one legal interleaving of the atomic counters |
| Counting.FillCellIndexLocalIndex | src/NN/CellList/cuda/CellList_gpu.hpp:185-195 | the counting loop produces the per-cell counts and gives each particle the number of earlier particles of its cell, a legal rank assignment |
| Placement.SlotsPermutation | src/NN/CellList/cuda/CellList_gpu.hpp:229-234 | the addresses prefix[cell] + rank are distinct, below the particle count, and each lies inside its own cell's bucket |
| Placement.PlaceInverse | src/NN/CellList/cuda/CellList_gpu.hpp:229-234 | writing particle i to its address and reading the address back returns i, and every slot is written once |
| Placement.CellOrderSlots | src/NN/CellList/cuda/CellList_gpu.hpp:206-234 | the cell-ordered array holds each active particle exactly once, at its counting-sort address |
| Placement.CellOrder | src/NN/CellList/cuda/CellList_gpu.hpp:206-234 | the cell-ordered array has one entry per active particle, each an index inside the active range |
| Placement.CellOrderPlaces | src/NN/CellList/cuda/CellList_gpu.hpp:229-234 | particle i is stored at its counting-sort slot of the cell-ordered array |
| Placement.BucketsPartitionSlots | src/NN/CellList/cuda/CellList_gpu.hpp:538-541 | a slot lies in cell c's bucket [prefix[c], prefix[c+1]) exactly when the particle stored there is in cell c |
| Placement.BucketContents | src/NN/CellList/cuda/CellList_gpu.hpp:538-541 | every element of cell c's bucket is an active particle of cell c |
| Placement.BucketElementIn | src/NN/CellList/cuda/CellList_gpu.hpp:538-541 | element e below the count of cell c is an active particle of that cell |
| Placement.BucketElementOf | src/NN/CellList/cuda/CellList_gpu.hpp:538-541 | every active particle is element e of its own cell's bucket for some e below that cell's count |
| Placement.BucketComplete | src/NN/CellList/cuda/CellList_gpu.hpp:538-541 | every active particle of cell c appears in c's bucket |
| Placement.IndexMapsInverse | src/NN/CellList/cuda/CellList_gpu.hpp:237-253 | unsorted-to-sorted and sorted-to-unsorted are inverse on the active range, and outside it unsorted-to-sorted keeps its previous entries |
| Placement.CellOrderMapStable | src/NN/CellList/cuda/CellList_gpu.hpp:237-253 | rebuilding unsorted-to-sorted from its own result changes nothing |
| Placement.CellOrderOnto | src/NN/CellList/cuda/CellList_gpu.hpp:237-253 | every active particle is stored in some sorted slot |
| Placement.ReorderRestores | src/NN/CellList/cuda/CellList_gpu.hpp:240-271 | copying a payload into sorted order and reading it at unsorted-to-sorted[u] returns particle u's payload for every active particle |
| Domain.DomainSlotsSpec | src/NN/CellList/cuda/CellList_gpu.hpp:110-147 | the domain list is strictly increasing, holds a slot exactly when the particle there is below the marker, and has the length the scan's last entry reports |
| Domain.DomainSlotsEdges | src/NN/CellList/cuda/CellList_gpu.hpp:110-147 | a marker of 0 gives an empty list; a marker above every particle gives every slot |
| Domain.ConstructDomainIds | src/NN/CellList/cuda/CellList_gpu.hpp:818-853 | mark, scan and compact produce exactly the domain list |
| Geometry.BoxStencilShape | src/NN/CellList/cuda/CellList_gpu.hpp:97-103 | the box stencil of n cells per side has (2n+1)^dim offsets and includes the cell itself |
| SparseVector.Find | src/NN/CellList/cuda/CellList_gpu.hpp:747-757 | a lookup returns a position holding the key, or -1 exactly when no stored key equals it |
| SparseVector.GetSpec | src/NN/CellList/cuda/CellList_gpu.hpp:747-757 | get returns the background exactly for keys that are not stored, and otherwise the key's value |
| SparseCells.OccupiedBelowSpec | src/NN/CellList/cuda/CellList_gpu.hpp:751-757 | the occupied cells below k are listed once each, in increasing order |
| SparseCells.OccupiedBelowCount | src/NN/CellList/cuda/CellList_gpu.hpp:744-757 | there are no more occupied cells below k than particles in cells below k |
| SparseCells.FlushSpec | src/NN/CellList/cuda/CellList_gpu.hpp:744-757 | the flushed vector has the background (unsigned int)-1, strictly increasing keys that are exactly the occupied cells and no more of them than particles, and each key's value is where its cell's segment starts |
| SparseCells.Flush | src/NN/CellList/cuda/CellList_gpu.hpp:744-757 | the flushed vector has one value per key, the background (unsigned int)-1, and at most one key per particle whatever the grid size |
| SparseCells.SparseSlotAddress | src/NN/CellList/cuda/CellList_gpu.hpp:751-757 | get on a particle's cell returns the number of active particles in lower cells, so value plus rank is the particle's counting-sort slot |
| SparseCells.SegmentIsBucket | src/NN/CellList/cuda/CellList_gpu.hpp:756-757 | the range from a key's value to the next key's value, or to the array end, is that cell's bucket |
| SparseCells.NeighborIdxsSpec | src/NN/CellList/cuda/CellList_gpu.hpp:762-768 | the neighbour key indices of a cell are exactly the stored keys one stencil offset away |
| SparseCells.NeighborLists | src/NN/CellList/cuda/CellList_gpu.hpp:759-788 | there is one neighbour list per occupied cell |
| SparseCells.NeighborRangesSpec | src/NN/CellList/cuda/CellList_gpu.hpp:781-788 | a cell's neighbour list holds exactly the buckets of the occupied cells one stencil offset away |
| SparseCells.NeighborRangeSound | src/NN/CellList/cuda/CellList_gpu.hpp:781-788 | entry j of a cell's neighbour list is the bucket of some occupied cell one stencil offset away |
| SparseCells.NeighborRangeComplete | src/NN/CellList/cuda/CellList_gpu.hpp:781-788 | the bucket of every occupied cell one stencil offset away is some entry of the cell's neighbour list |
| SparseCells.NeighborTableLayout | src/NN/CellList/cuda/CellList_gpu.hpp:759-788 | each cell's list sits in the table between its two consecutive scanned counts |
| SparseCells.NeighborCounts | src/NN/CellList/cuda/CellList_gpu.hpp:759-781 | the scanned neighbour counts start at 0, grow by each cell's neighbour count, and end at the table size |
| SparseCells.TableSize | src/NN/CellList/cuda/CellList_gpu.hpp:778-788 | the neighbour table holds at most one range per key and stencil offset |
| DenseCellList.ConstructNeighborCellOffset | src/NN/CellList/cuda/CellList_gpu.hpp:97-103 | the box stencil of n cells per side is installed with (2n+1)^dim entries, nothing else changes |
| DenseCellList.InitializeStructures | src/NN/CellList/cuda/CellList_gpu.hpp:79-95 | divisions, the cell box's upper corner and padding are recorded, the count buffer has one entry per cell and keeps its earlier counts, the neighbour count is 1 with a 3^dim stencil, and nothing else changes |
| DenseCellList.Initialize | src/NN/CellList/cuda/CellList_gpu.hpp:352-362 | the decomposer is installed, getNCells is the grid's cell count, numCellDim is the grid size, the unit cell is the cell box's corner, the neighbour count is 1 with a 3^dim stencil, and nothing else changes |
| DenseCellList.ConstructDense | src/NN/CellList/cuda/CellList_gpu.hpp:154-281 | the count and prefix buffers have grid-cells+1 entries, and the decomposer, markers and stencil are untouched |
| DenseCellList.DenseSlotAddress | src/NN/CellList/cuda/CellList_gpu.hpp:229-234 | the address fill_cells uses, prefix[cell] + local, is the particle's counting-sort slot |
| DenseCellList.DenseConstructCounts | src/NN/CellList/cuda/CellList_gpu.hpp:165-195 | stop = (size_t)-1 means the input size, so the cell/local buffer has size-start entries and, for a non-empty range, so does sorted-to-unsorted; getNCells is grid-cells+1, getNelements(c) counts the active particles of c, and the extra slot is 0 |
| DenseCellList.DenseConstructEmpty | src/NN/CellList/cuda/CellList_gpu.hpp:172-183 | with start == stop, or an empty input with any stop, the count and prefix buffers become grid-cells+1 zeros, the cell/local buffer gets stop-start entries, and nothing else changes |
| DenseCellList.DensePrefixSum | src/NN/CellList/cuda/CellList_gpu.hpp:197-204 | the prefix buffer is the scan of the counts, prefix[c] is the number of active particles below c, and the last entry is the number of active particles, stop-start for a non-empty input |
| DenseCellList.DenseGetInCell | src/NN/CellList/cuda/CellList_gpu.hpp:538-541 | every get(cell, ele) with ele below getNelements(cell) returns an active particle in that cell |
| DenseCellList.DenseGetDistinct | src/NN/CellList/cuda/CellList_gpu.hpp:538-541 | different elements of a cell return different particles |
| DenseCellList.DenseGetComplete | src/NN/CellList/cuda/CellList_gpu.hpp:538-541 | every active particle of a cell is returned by get for some element below getNelements |
| DenseCellList.BucketGetInCell | src/NN/CellList/cuda/CellList_gpu.hpp:538-541 | over any state holding a built bucket, get returns only active particles of that cell |
| DenseCellList.BucketGetDistinct | src/NN/CellList/cuda/CellList_gpu.hpp:538-541 | over any state holding a built bucket, get returns distinct particles for distinct elements |
| DenseCellList.BucketGetComplete | src/NN/CellList/cuda/CellList_gpu.hpp:538-541 | over any state holding a built bucket, get reaches every active particle of the cell |
| DenseCellList.DenseBucketIff | src/NN/CellList/cuda/CellList_gpu.hpp:206-234 | a sorted slot lies in [prefix[cell], prefix[cell+1]) exactly when its particle is in the cell |
| DenseCellList.DenseIndexMaps | src/NN/CellList/cuda/CellList_gpu.hpp:237-271 | sorted-to-unsorted has stop-start entries in the active range, unsorted-to-sorted covers the input, the two are inverse on the active range, and outside it unsorted-to-sorted keeps its previous entries |
| DenseCellList.DenseDomainIds | src/NN/CellList/cuda/CellList_gpu.hpp:273-274 | a full build lists, in increasing order, exactly the sorted slots whose particle is below the ghost marker; reorder-only builds keep the old list |
| DenseCellList.DenseConstructIdempotent | src/NN/CellList/cuda/CellList_gpu.hpp:154-281 | constructing again with the same arguments gives the same state |
| DenseCellList.ScenarioCounts | src/NN/CellList/cuda/CellList_gpu.hpp:185-195 | the cell ids 0, 0, 1, 35 give counts 2, 1, 1 at those cells and 0 elsewhere |
| DenseCellList.DenseScenario | src/NN/CellList/cuda/CellList_gpu.hpp:154-281 | four particles in cells (0,0), (0,0), (1,0), (5,5) of a 6x6 grid give those counts, and cell (0,0) returns particles 0 and 1 |
| DenseCellList.Clear | src/NN/CellList/cuda/CellList_gpu.hpp:440-447 | clear empties the counts, prefix sums, cell-ordered array, cell/local pairs and sorted-to-unsorted map, and nothing else changes |
| DenseCellList.SetGm | src/NN/CellList/cuda/CellList_gpu.hpp:459-472 | get_gm returns what set_gm set, and nothing else changes |
| DenseCellList.SetNdec | src/NN/CellList/cuda/CellList_gpu.hpp:481-494 | get_ndec returns what set_ndec set, and nothing else changes |
| DenseCellList.SetBoxNN | src/NN/CellList/cuda/CellList_gpu.hpp:333-337 | the neighbour count is recorded, the stencil gets (2n+1)^dim entries, a following resetBoxNN is a no-op, and nothing else changes |
| DenseCellList.ResetBoxNN | src/NN/CellList/cuda/CellList_gpu.hpp:339-342 | the stencil is rebuilt for the recorded neighbour count, nothing else changes |
| DenseCellList.DenseSwapSpec | src/NN/CellList/cuda/CellList_gpu.hpp:563-585 | swapping twice restores both lists; after one swap each answers the queries as the other did but keeps its own box stencil and neighbour count |
| DenseCellList.Assign | src/NN/CellList/cuda/CellList_gpu.hpp:587-606 | the copy equals the source except for the box stencil, its neighbour count and the radius stencil, which keep the destination's |
| DenseCellList.Swap | src/NN/CellList/cuda/CellList_gpu.hpp:563-585 | each side gets the other's whole state except the box stencil, its neighbour count and the radius stencil, which stay |
| DenseCellList.DenseMoveAssignSpec | src/NN/CellList/cuda/CellList_gpu.hpp:608-627 | a move leaves the destination as a copy would, and hands the destination's former decomposer and buffers to the source |
| DenseCellList.MoveAssign | src/NN/CellList/cuda/CellList_gpu.hpp:608-627 | the destination ends as the copy assignment would leave it; the source keeps its own stencils, geometry arrays and markers and receives the destination's decomposer and buffers |
| SparseCellList.ConstructNeighborCellOffset | src/NN/CellList/cuda/CellList_gpu.hpp:698-703 | the box stencil of n cells per side is installed with (2n+1)^dim entries, nothing else changes |
| SparseCellList.InitializeStructures | src/NN/CellList/cuda/CellList_gpu.hpp:682-696 | divisions, padding and the unit cell are recorded, the neighbour count is 1 with a 3^dim stencil, nothing else changes |
| SparseCellList.Initialize | src/NN/CellList/cuda/CellList_gpu.hpp:924-934 | the decomposer is installed and the structures are set up for its grid: numCellDim is the grid size, the neighbour count is 1 with a 3^dim stencil, and nothing else changes |
| SparseCellList.ConstructSparse | src/NN/CellList/cuda/CellList_gpu.hpp:710-811 | cellIndex has stop-start entries, and the decomposer, markers, stencil and geometry arrays are untouched |
| SparseCellList.SparseConstructEarly | src/NN/CellList/cuda/CellList_gpu.hpp:716-731 | for an empty input or stop == 0 only cellIndex changes: it becomes stop-start zeros, none when stop == 0 |
| SparseCellList.SparseConstructEmptyRange | src/NN/CellList/cuda/CellList_gpu.hpp:725-811 | with 0 < start == stop there are no keys, the neighbour counts are [0], the table and sorted arrays are empty, unsorted-to-sorted covers the input and keeps its previous entries, and a full build's domain list is empty |
| SparseCellList.SparseOccupiedCells | src/NN/CellList/cuda/CellList_gpu.hpp:744-760 | the sparse vector's keys are exactly the occupied cells, no more of them than active particles, each valued with the number of active particles in lower cells, and no value is the background while fewer than (unsigned int)-1 particles are active |
| SparseCellList.SparseSegment | src/NN/CellList/cuda/CellList_gpu.hpp:751-757 | get on a key returns its segment start, and a slot lies in the key's segment exactly when its particle is in that cell |
| SparseCellList.SegmentSlots | src/NN/CellList/cuda/CellList_gpu.hpp:751-757 | a key's segment in the cell-ordered array holds exactly its cell's particles |
| SparseCellList.SparseNeighborTotal | src/NN/CellList/cuda/CellList_gpu.hpp:759-788 | the scanned counts start at 0, have one entry per key plus one, step by each cell's neighbour count, and end at the table size, which is at most the number of keys times the stencil size |
| SparseCellList.SparseNeighborRun | src/NN/CellList/cuda/CellList_gpu.hpp:781-788 | the run of cell k in the table lists the segment of every occupied cell one stencil offset away, and nothing else |
| SparseCellList.TableRunSound | src/NN/CellList/cuda/CellList_gpu.hpp:781-788 | the table entries between two consecutive counts are only those of the cell's neighbour list |
| SparseCellList.TableRunComplete | src/NN/CellList/cuda/CellList_gpu.hpp:781-788 | every segment of the cell's neighbour list appears between its two consecutive counts |
| SparseCellList.NeighborRunSound | src/NN/CellList/cuda/CellList_gpu.hpp:762-788 | a neighbour list names only segments of occupied stencil neighbours |
| SparseCellList.NeighborRunComplete | src/NN/CellList/cuda/CellList_gpu.hpp:762-788 | a neighbour list names the segment of every occupied stencil neighbour |
| SparseCellList.RunOfTable | src/NN/CellList/cuda/CellList_gpu.hpp:778-788 | the table slice between counts k and k+1 is exactly list k |
| SparseCellList.SparseIndexMaps | src/NN/CellList/cuda/CellList_gpu.hpp:790-804 | the two maps are inverse on [0, stop-start), and above that range unsorted-to-sorted keeps its previous entries |
| SparseCellList.SparseDomainIds | src/NN/CellList/cuda/CellList_gpu.hpp:806-807 | a full build lists, in increasing order, exactly the slots whose stored index is below the marker; reorder-only builds keep the old list |
| SparseCellList.SparseConstructIdempotent | src/NN/CellList/cuda/CellList_gpu.hpp:710-811 | constructing again with the same arguments gives the same state |
| SparseCellList.Clear | src/NN/CellList/cuda/CellList_gpu.hpp:1007-1012 | clear empties the cell-ordered array, cellIndex and sorted-to-unsorted, and nothing else changes |
| SparseCellList.SetGm | src/NN/CellList/cuda/CellList_gpu.hpp:1017-1037 | get_gm returns what set_gm set, and nothing else changes |
| SparseCellList.SetNdec | src/NN/CellList/cuda/CellList_gpu.hpp:1046-1059 | get_ndec returns what set_ndec set, and nothing else changes |
| SparseCellList.SetBoxNN | src/NN/CellList/cuda/CellList_gpu.hpp:905-909 | an unsigned int neighbour count is recorded, the stencil gets (2n+1)^dim entries, a following resetBoxNN is a no-op, and nothing else changes |
| SparseCellList.ResetBoxNN | src/NN/CellList/cuda/CellList_gpu.hpp:911-914 | the stencil is rebuilt for the recorded neighbour count, nothing else changes |
| SparseCellList.SetRadius | src/NN/CellList/cuda/CellList_gpu.hpp:957-960 | the sparse setRadius leaves the state unchanged |
| SparseCellList.SparseSwapSpec | src/NN/CellList/cuda/CellList_gpu.hpp:1107-1135 | the corrected swap exchanges the two lists whole, so swapping twice is the identity |
| SparseCellList.Swap | src/NN/CellList/cuda/CellList_gpu.hpp:1107-1135 | the two lists change places whole |
| SparseCellList.ThroughInt | src/NN/CellList/cuda/CellList_gpu.hpp:1132-1134 | the value that comes back from the int temporary fits a size_t, and is unchanged below 2^31 |
| SparseCellList.ThroughIntFixed | src/NN/CellList/cuda/CellList_gpu.hpp:1132-1134 | a size_t survives the int temporary exactly when it is below 2^31 or at least 2^64 - 2^31 |
| SparseCellList.SwapAsWrittenSmall | src/NN/CellList/cuda/CellList_gpu.hpp:1107-1135 | below 2^31 neighbours per side the written swap is the full exchange, and swapping twice restores both |
| SparseCellList.SwapAsWritten | src/NN/CellList/cuda/CellList_gpu.hpp:1107-1135 | this side receives the other list whole; the other side receives this list with its neighbour count passed through the int temporary |
| SparseCellList.SwapAsWrittenCounterexample | src/NN/CellList/cuda/CellList_gpu.hpp:1132-1134 | a neighbour count of 2^31 comes back as 2^64 - 2^31, and swapping twice does not restore the list |
| SparseCellList.Assign | src/NN/CellList/cuda/CellList_gpu.hpp:1137-1160 | the copy equals the source in every member, the stencil and neighbour count included |
| SparseCellList.MoveAssignAsWritten | src/NN/CellList/cuda/CellList_gpu.hpp:1137-1163 | as declared, a move between two sparse lists runs the copy assignment: both the destination and the moved-from list end equal to the source |
| SparseCellList.MoveAsWrittenKeepsSource | src/NN/CellList/cuda/CellList_gpu.hpp:1162-1163 | the declared and the intended move agree on the destination, but as declared the moved-from list keeps its own particle buffer where the intended move hands it the destination's, so the two differ |
| SparseCellList.SparseMoveAssignSpec | src/NN/CellList/cuda/CellList_gpu.hpp:1162-1185 | the intended move (its parameter of the sparse list type) leaves the destination as a copy would, and gives the source the destination's former buffers and stencil with its own geometry arrays, markers and neighbour count |
| SparseCellList.MoveAssign | src/NN/CellList/cuda/CellList_gpu.hpp:1162-1185 | under the intended move the destination ends equal to the source; the source receives the destination's buffers and stencil and keeps its geometry arrays, markers and neighbour count |

## Left out

- Positions and the coordinate transform: construction receives each particle's linear cell id. The `CellDecomposer_sm` geometry and `setDimensions` are not part of this model; `Initialize` takes the configured decomposer as a parameter.
- The kernel bodies (`Cuda_cell_list_util_func.hpp`, the sparse vector's flush) are not part of this model. Each kernel is modelled by the result it computes: any atomic interleaving of the rank counters in the dense builder, and any segment order in the sparse flush.
- The sparse flush records each particle by its thread index inside the active range. The sparse cell-ordered array and maps therefore hold indices relative to `start`. This follows from the kernel launch bounds, not from kernel code that is part of this model.
- CUDA plumbing: the GPU context, iterators, `toKernel`, device/host transfers, `debug_deviceToHost`, and the branches compiled without NVCC.
- The `MAKE_CELLLIST_DETERMINISTIC` branch of the dense builder: it only fixes the rank order. `Counting.SequentialRanks` is one of the orders `ValidRanks` admits.
- `NNcalc_box` is modelled by `Geometry.BoxStencil`, a row-major box of offsets. `NNcalc_rad` and the dense `setRadius` need floating-point cell geometry and are left out.
- The physical reorder of positions and properties (`reorderParticles`): modelled only by `Placement.Reorder` on one payload, not by each property kernel.
- The sparse `get` on a cell/element pair and the kernel-side query view (`toKernel`): the sparse lookup is covered by `SparseVector.GetSpec` and `SparseCellList.SparseSegment`.
- Accessors `getSortToNonSort`, `getNonSortToSort` and `getDomainSortIds`: they return a buffer the model exposes as a field.
- `construct`, which only forwards to `construct_dense` / `construct_sparse` after the option check. The symmetric options are rejected there with a diagnostic, which is left out.
- SparseCellList.SetRadius: the sparse `setRadius` writes "setRadius() is supported by dense cell list only!" to `std::cerr` (957-960); the model keeps only its effect on the state, which is none, because output streams are not modelled.
- The copy and move constructors (303-316 and 875-888): both call `operator=` with the named parameter `clg`, which is an lvalue, so the move constructor also runs the copy assignment, on a default-constructed object. For the dense list the copy assignment does not copy `boxNeighborNumber` or the stencils, and the default constructor (322-323) leaves them uninitialised. Uninitialised memory is not modelled, so the constructors are left out. In the sparse list both constructors take the dense list type, for the same reason as the move assignment in the findings below.
- Counters are unsigned 32-bit on the device (`unsigned int` counts, scan and sparse values). The model uses unbounded naturals and does not model their wrap-around beyond 2^32 - 1 particles; `SparseCellList.SparseOccupiedCells` states its no-background fact only below that bound.
- DenseCellList.ConstructDense and SparseCellList.ConstructSparse admit an empty input with any `start <= stop`, which the source handles with its early return. For a non-empty input they require `start <= stop <= size` and every active particle's cell id inside the grid. The source checks neither; breaking them is an out-of-bounds access on the device, which is not modelled.
- Placement.IndexMapsInverse: the entries that the resize of unsorted-to-sorted adds are uninitialised device memory in the source. The model fills them with 0 but the contract leaves them unspecified.
- DenseCellList.DenseIndexMaps: the unsorted-to-sorted entries added by the resize are uninitialised in the source, so the contract says nothing about them.
- SparseCellList.SparseIndexMaps: the unsorted-to-sorted entries added by the resize are uninitialised in the source, so the contract says nothing about them.
- SparseCellList.SparseConstructEmptyRange: the unsorted-to-sorted entries added by the resize are uninitialised in the source, so the contract says nothing about them.
- DenseCellList.Get has no bounds check in the source either: the model requires the element to lie in the cell-ordered array instead of modelling the out-of-bounds read.
- `GoogleChart.hpp` and the rest of the repository are outside this model.

## Findings

| source | as written | input that shows it | evidently intended | confidence | as-written member | corrected member |
|---|---|---|---|---|---|---|
| src/NN/CellList/cuda/CellList_gpu.hpp:1132-1134 | the sparse `swap` passes `boxNeighborNumber` (a `size_t`) through an `int` temporary on its way to `clg` | `setBoxNN(2147483648)` (the parameter is `unsigned int`), then `swap`: `clg` receives 2^64 - 2^31, and a second `swap` does not restore the list | exchange the neighbour count in full, as `ghostMarker` and `nDecRefRedec` are exchanged a few lines above | low; not executed | SparseCellList.SwapAsWritten with SparseCellList.SwapAsWrittenCounterexample | SparseCellList.Swap with SparseCellList.SparseSwapSpec |
| src/NN/CellList/cuda/CellList_gpu.hpp:1162-1163 | the sparse list's move `operator=` takes `CellList_gpu<dim,T,Memory,transform_type> &&`, and with the defaulted `is_sparse = false` (line 24) that is the dense list | `dst = std::move(src)` on two built sparse lists selects the copy `operator=` (1137-1160): `src` keeps its particle buffer, cell index and stencil, and the swapping body is never used | take `CellList_gpu<dim,T,Memory,transform_type,true> &&`, as the sparse `swap` (1107) and copy `operator=` (1137) spell out | medium; not executed | SparseCellList.MoveAssignAsWritten with SparseCellList.MoveAsWrittenKeepsSource | SparseCellList.MoveAssign with SparseCellList.SparseMoveAssignSpec |

=== FILE: counting.dfy ===
/** First phase of the counting sort: per-cell particle counts and each
    particle's local rank inside its cell (kernel `fill_cellIndex_LocalIndex`,
    which increments the cell's counter atomically and keeps the value it read). */
module Counting {
  import opened Seqs
  import opened Scan

  /** Number of entries of `s` equal to `c`. */
  function Count(s: seq<nat>, c: nat): nat
  {
    if |s| == 0 then 0 else Count(s[..|s| - 1], c) + (if s[|s| - 1] == c then 1 else 0)
  }

  /** Number of entries of `s` below `c`. */
  function CountBelow(s: seq<nat>, c: nat): nat
  {
    if |s| == 0 then 0 else CountBelow(s[..|s| - 1], c) + (if s[|s| - 1] < c then 1 else 0)
  }

  /** The `numPartInCell` buffer for `k` slots: slot `c` counts the particles in cell `c`. */
  function CellCounts(cells: seq<nat>, k: nat): (r: seq<nat>)
    ensures |r| == k
  {
    seq(k, c requires 0 <= c < k => Count(cells, c))
  }

  lemma {:induction false} CountBelowStep(s: seq<nat>, c: nat)
    ensures CountBelow(s, c + 1) == CountBelow(s, c) + Count(s, c)
  {
    if |s| > 0 {
      CountBelowStep(s[..|s| - 1], c);
    }
  }

  lemma {:induction false} CountBelowMonotone(s: seq<nat>, a: nat, b: nat)
    requires a <= b
    ensures CountBelow(s, a) <= CountBelow(s, b)
  {
    if |s| > 0 {
      CountBelowMonotone(s[..|s| - 1], a, b);
    }
  }

  lemma {:induction false} CountBelowAtMostLength(s: seq<nat>, c: nat)
    ensures CountBelow(s, c) <= |s|
    ensures AllBelow(s, c) ==> CountBelow(s, c) == |s|
  {
    if |s| > 0 {
      CountBelowAtMostLength(s[..|s| - 1], c);
    }
  }

  /** The bucket of cell `c` fits in the array. */
  lemma BucketBounds(s: seq<nat>, c: nat)
    ensures CountBelow(s, c) + Count(s, c) <= |s|
  {
    CountBelowStep(s, c);
    CountBelowAtMostLength(s, c + 1);
  }

  /** No entry lies in `[a, b)`: the two counts agree. */
  lemma {:induction false} CountBelowGap(s: seq<nat>, a: nat, b: nat)
    requires a <= b
    requires forall i :: 0 <= i < |s| ==> s[i] < a || b <= s[i]
    ensures CountBelow(s, a) == CountBelow(s, b)
  {
    if |s| > 0 {
      CountBelowGap(s[..|s| - 1], a, b);
    }
  }

  /** A value that occurs is counted at least once. */
  lemma {:induction false} CountPositive(s: seq<nat>, i: nat)
    requires i < |s|
    ensures Count(s, s[i]) > 0
  {
    if i < |s| - 1 {
      CountPositive(s[..|s| - 1], i);
    }
  }

  /** A value is counted exactly when it occurs. */
  lemma {:induction false} CountHits(s: seq<nat>, c: nat)
    ensures Count(s, c) > 0 <==> Hits(s, c)
  {
    if |s| > 0 {
      var init := s[..|s| - 1];
      CountHits(init, c);
      if Hits(init, c) {
        var i :| 0 <= i < |init| && init[i] == c;
        assert s[i] == c;
      }
      if Hits(s, c) && s[|s| - 1] != c {
        var i :| 0 <= i < |s| && s[i] == c;
        assert init[i] == c;
      }
    }
  }

  /** Counting over a prefix never exceeds counting over a longer prefix. */
  lemma {:induction false} CountPrefixMonotone(s: seq<nat>, i: nat, j: nat, c: nat)
    requires i <= j <= |s|
    ensures Count(s[..i], c) <= Count(s[..j], c)
    decreases j - i
  {
    if i < j {
      CountPrefixMonotone(s, i, j - 1, c);
      assert s[..j][..j - 1] == s[..j - 1];
    }
  }

  /** Bucket sums equal the particle count: with every cell id below `k`,
      the per-cell counts of `k` slots add up to the number of particles,
      and the scan of the counts gives, for each cell, the number of
      particles in lower cells. */
  lemma {:induction false} ScanOfCounts(cells: seq<nat>, k: nat)
    requires AllBelow(cells, k)
    ensures Sum(CellCounts(cells, k)) == |cells|
    ensures forall c :: 0 <= c < k ==> ExclusiveScan(CellCounts(cells, k))[c] == CountBelow(cells, c)
  {
    var counts := CellCounts(cells, k);
    var scan := ExclusiveScan(counts);
    ScanAgreesBelow(cells, k, k);
    CountBelowAtMostLength(cells, k);
    if k == 0 {
      CountBelowZero(cells);
    } else {
      ScanLast(counts);
      CountBelowStep(cells, k - 1);
    }
  }

  lemma {:induction false} ScanAgreesBelow(cells: seq<nat>, k: nat, n: nat)
    requires n <= k
    ensures forall c :: 0 <= c < n ==> ExclusiveScan(CellCounts(cells, k))[c] == CountBelow(cells, c)
  {
    if n > 0 {
      ScanAgreesBelow(cells, k, n - 1);
      var c := n - 1;
      if c > 0 {
        CountBelowStep(cells, c - 1);
      } else {
        assert CountBelow(cells, 0) == 0 by {
          CountBelowAtMostLength(cells, 0);
          CountBelowMonotone(cells, 0, 0);
          CountBelowZero(cells);
        }
      }
    }
  }

  lemma {:induction false} CountBelowZero(s: seq<nat>)
    ensures CountBelow(s, 0) == 0
  {
    if |s| > 0 {
      CountBelowZero(s[..|s| - 1]);
    }
  }

  /** Local ranks produced by any interleaving of the atomic increments: each
      particle's rank is below its cell's count and no two particles of one
      cell share a rank, so the ranks of a cell are a permutation of
      `[0, count)`. */
  ghost predicate ValidRanks(cells: seq<nat>, ranks: seq<nat>)
  {
    && |ranks| == |cells|
    && (forall i :: 0 <= i < |cells| ==> ranks[i] < Count(cells, cells[i]))
    && (forall i, j :: 0 <= i < |cells| && 0 <= j < |cells| && i != j && cells[i] == cells[j]
          ==> ranks[i] != ranks[j])
  }

  /** The ranks of the interleaving in which particles increment their cell's
      counter one after another in index order. */
  function SequentialRanks(cells: seq<nat>): (r: seq<nat>)
    ensures |r| == |cells|
  {
    seq(|cells|, i requires 0 <= i < |cells| => Count(cells[..i], cells[i]))
  }

  /** The in-order interleaving is one of the legal ones. */
  lemma SequentialRanksValid(cells: seq<nat>)
    ensures ValidRanks(cells, SequentialRanks(cells))
  {
    var r := SequentialRanks(cells);
    forall i | 0 <= i < |cells|
      ensures r[i] < Count(cells, cells[i])
    {
      assert cells[..i + 1][..i] == cells[..i];
      CountPrefixMonotone(cells, i + 1, |cells|, cells[i]);
      assert cells[..|cells|] == cells;
    }
    forall i, j | 0 <= i < |cells| && 0 <= j < |cells| && i < j && cells[i] == cells[j]
      ensures r[i] < r[j]
    {
      assert cells[..i + 1][..i] == cells[..i];
      CountPrefixMonotone(cells, i + 1, j, cells[i]);
    }
  }

  /** Sequential counterpart of `fill_cellIndex_LocalIndex` over the active
      range: each particle reads its cell's counter as its local rank and
      increments it. */
  method FillCellIndexLocalIndex(cells: seq<nat>, k: nat) returns (counts: seq<nat>, ranks: seq<nat>)
    requires AllBelow(cells, k)
    ensures counts == CellCounts(cells, k)
    ensures ranks == SequentialRanks(cells)
    ensures ValidRanks(cells, ranks)
  {
    counts := Zeros(k);
    ranks := [];
    var i := 0;
    while i < |cells|
      invariant 0 <= i <= |cells|
      invariant |counts| == k
      invariant forall c :: 0 <= c < k ==> counts[c] == Count(cells[..i], c)
      invariant |ranks| == i
      invariant forall j :: 0 <= j < i ==> ranks[j] == Count(cells[..j], cells[j])
    {
      var c := cells[i];
      assert cells[..i + 1][..i] == cells[..i];
      ranks := ranks + [counts[c]];
      counts := counts[c := counts[c] + 1];
      i := i + 1;
    }
    assert cells[..|cells|] == cells;
    SequentialRanksValid(cells);
  }
}

=== FILE: dense.dfy ===
/** The dense cell list (`CellList_gpu<..., false>`): a counting sort of the
    active particles into a per-cell offset table over the whole padded grid. */
module DenseCellList {
  import opened Seqs
  import opened Scan
  import opened Counting
  import opened Placement
  import opened Domain
  import opened Geometry
  import opened BuildInputs

  /** One entry of `cellIndex_LocalIndex`: a particle's cell id and its local
      rank inside the cell. */
  datatype CellLocal = CellLocal(cell: nat, local: nat)

  /** The builder's state, one field per member of the class. */
  datatype DenseState = DenseState(
    decomposer: Decomposer,
    numPartInCell: seq<nat>,
    cellIndexLocalIndexToPart: seq<nat>,
    numPartInCellPrefixSum: seq<nat>,
    cellIndexLocalIndex: seq<CellLocal>,
    sortedToUnsortedIndex: seq<nat>,
    indexSorted: seq<nat>,
    unsortedToSortedIndex: seq<nat>,
    boxNeighborNumber: nat,
    boxNeighborCellOffset: seq<int>,
    unitCellP2: seq<real>,
    numCellDim: seq<int>,
    cellPadDim: seq<int>,
    rcutNeighborCellOffset: seq<int>,
    nDecRefRedec: nat,
    ghostMarker: nat)

  /** Number of cells of the padded grid. */
  function NumCells(st: DenseState): nat
  {
    GridCells(st.decomposer.gridSize)
  }

  /** `constructNeighborCellOffset`: the box stencil of `n` cells per side. */
  function ConstructNeighborCellOffset(st: DenseState, n: nat): (r: DenseState)
    ensures |r.boxNeighborCellOffset| == Pow(2 * n + 1, |st.decomposer.gridSize|)
    ensures r.(boxNeighborCellOffset := st.boxNeighborCellOffset) == st
  {
    BoxStencilShape(n, Strides(st.decomposer.gridSize));
    st.(boxNeighborCellOffset := BoxStencil(n, Strides(st.decomposer.gridSize)))
  }

  /** `InitializeStructures`: record the grid's divisions, the cell box's
      upper corner and the padding, size the count buffer to the grid
      (without the extra slot a construction adds, keeping the counts it
      already held) and build the stencil of one cell per side. Nothing else
      changes. */
  function InitializeStructures(st: DenseState, div: seq<nat>, totNCell: nat, pad: nat): (r: DenseState)
    ensures |r.numPartInCell| == totNCell
    ensures forall c :: 0 <= c < totNCell && c < |st.numPartInCell| ==> r.numPartInCell[c] == st.numPartInCell[c]
    ensures r.numCellDim == div && r.cellPadDim == seq(|div|, _ => pad)
    ensures r.unitCellP2 == st.decomposer.cellBoxP2
    ensures r.boxNeighborNumber == 1
    ensures |r.boxNeighborCellOffset| == Pow(3, |st.decomposer.gridSize|)
    ensures r.(numCellDim := st.numCellDim, unitCellP2 := st.unitCellP2, cellPadDim := st.cellPadDim,
               numPartInCell := st.numPartInCell, boxNeighborNumber := st.boxNeighborNumber,
               boxNeighborCellOffset := st.boxNeighborCellOffset) == st
  {
    var st1 := st.(
      numCellDim := seq(|div|, i requires 0 <= i < |div| => div[i]),
      unitCellP2 := st.decomposer.cellBoxP2,
      cellPadDim := seq(|div|, _ => pad),
      numPartInCell := Resize(st.numPartInCell, totNCell, 0),
      boxNeighborNumber := 1);
    ConstructNeighborCellOffset(st1, 1)
  }

  /** `Initialize`: the decomposer configured by `setDimensions` (outside the
      model) is installed, then the structures are sized from its grid. */
  function Initialize(st: DenseState, decomposer: Decomposer, pad: nat): (r: DenseState)
    ensures GetNCells(r) == GridCells(decomposer.gridSize)
    ensures r.decomposer == decomposer && r.numCellDim == decomposer.gridSize
    ensures r.unitCellP2 == decomposer.cellBoxP2
    ensures r.boxNeighborNumber == 1
    ensures |r.boxNeighborCellOffset| == Pow(3, |decomposer.gridSize|)
    ensures r.(decomposer := st.decomposer, numCellDim := st.numCellDim, unitCellP2 := st.unitCellP2,
               cellPadDim := st.cellPadDim, numPartInCell := st.numPartInCell,
               boxNeighborNumber := st.boxNeighborNumber, boxNeighborCellOffset := st.boxNeighborCellOffset) == st
  {
    var st1 := st.(decomposer := decomposer);
    InitializeStructures(st1, decomposer.gridSize, GridCells(decomposer.gridSize), pad)
  }

  /** `construct_dense`. `cellOf` holds the cell id of every input particle
      (the position transform is outside the model) and `ranks` the local
      ranks the atomic counters handed out, in any legal interleaving. */
  function ConstructDense(st: DenseState, cellOf: seq<nat>, ranks: seq<nat>, ghostMarker: nat,
                          start: nat, stop: nat, opt: ConstructOpt): (r: DenseState)
    requires ActiveRange(cellOf, start, stop, NumCells(st))
    requires ValidRanks(ActiveCells(cellOf, start, stop), ranks)
    ensures |r.numPartInCell| == NumCells(st) + 1
    ensures |r.numPartInCellPrefixSum| == NumCells(st) + 1
    ensures |r.cellIndexLocalIndex| == ResolveStop(stop, |cellOf|) - start
    ensures r.decomposer == st.decomposer && r.ghostMarker == st.ghostMarker
    ensures r.nDecRefRedec == st.nDecRefRedec && r.boxNeighborNumber == st.boxNeighborNumber
    ensures r.boxNeighborCellOffset == st.boxNeighborCellOffset
  {
    var n := |cellOf|;
    var stop' := ResolveStop(stop, n);
    var numCells := NumCells(st);
    var st1 := st.(
      numPartInCell := Zeros(numCells + 1),
      cellIndexLocalIndex := Resize(st.cellIndexLocalIndex, stop' - start, CellLocal(0, 0)));
    if NoThreads(stop' - start - 1) || n == 0 || stop' == 0 then
      // no particles
      st1.(numPartInCellPrefixSum := Zeros(numCells + 1))
    else
      var cells := ActiveCells(cellOf, start, stop);
      var counts := CellCounts(cells, numCells + 1);
      var prefix := ExclusiveScan(counts);
      // fill_cells: particle i goes to prefix[cell] + local (see DenseSlotAddress)
      var c2p := CellOrder(cells, ranks, start);
      var s2u := c2p;
      var u2s := UnsortedToSorted(st.unsortedToSortedIndex, n, s2u);
      st1.(
        numPartInCell := counts,
        cellIndexLocalIndex := seq(|cells|, i requires 0 <= i < |cells| => CellLocal(cells[i], ranks[i])),
        numPartInCellPrefixSum := prefix,
        cellIndexLocalIndexToPart := c2p,
        sortedToUnsortedIndex := s2u,
        unsortedToSortedIndex := u2s,
        indexSorted := if opt == Full then DomainSlots(s2u, ghostMarker) else st.indexSorted)
  }

  /** `getNCells`. */
  function GetNCells(st: DenseState): nat
  {
    |st.numPartInCell|
  }

  /** `getNelements`. */
  function GetNelements(st: DenseState, cell: nat): nat
    requires cell < |st.numPartInCell|
  {
    st.numPartInCell[cell]
  }

  /** `get(cell, ele)`: element `ele` of the cell's bucket in the
      cell-ordered particle array. The source does no bounds check. */
  function Get(st: DenseState, cell: nat, ele: nat): nat
    requires cell < |st.numPartInCellPrefixSum|
    requires st.numPartInCellPrefixSum[cell] + ele < |st.cellIndexLocalIndexToPart|
  {
    st.cellIndexLocalIndexToPart[st.numPartInCellPrefixSum[cell] + ele]
  }

  // ---------------------------------------------------------------------
  // Properties of a construction

  /** `fill_cells` writes particle `i` at `prefix[cell] + local`; that address
      is the particle's slot in the counting sort. */
  lemma DenseSlotAddress(cells: seq<nat>, ranks: seq<nat>, numCells: nat)
    requires AllBelow(cells, numCells)
    requires ValidRanks(cells, ranks)
    ensures forall i :: 0 <= i < |cells| ==>
      ExclusiveScan(CellCounts(cells, numCells + 1))[cells[i]] + ranks[i] == SlotsOf(cells, ranks)[i]
  {
    AllBelowWeaken(cells, numCells);
    ScanOfCounts(cells, numCells + 1);
  }

  lemma AllBelowWeaken(s: seq<nat>, k: nat)
    requires AllBelow(s, k)
    ensures AllBelow(s, k + 1)
  {
  }

  /** After a construction with `stop == (size_t)-1` there is one cell/local
      pair per particle from `start` on and, when that range is not empty,
      the sorted-to-unsorted map has the same size. The count buffer has
      grid-cells+1 entries, `getNCells()` reports that, each of its entries
      counts the active particles of that cell, and the extra last slot
      counts none. */
  lemma DenseConstructCounts(st: DenseState, cellOf: seq<nat>, ranks: seq<nat>, ghostMarker: nat,
                             start: nat, stop: nat, opt: ConstructOpt)
    requires ActiveRange(cellOf, start, stop, NumCells(st))
    requires ValidRanks(ActiveCells(cellOf, start, stop), ranks)
    ensures stop == SizeMax ==>
      |ConstructDense(st, cellOf, ranks, ghostMarker, start, stop, opt).cellIndexLocalIndex| == |cellOf| - start
    ensures stop == SizeMax && start < |cellOf| ==>
      |ConstructDense(st, cellOf, ranks, ghostMarker, start, stop, opt).sortedToUnsortedIndex| == |cellOf| - start
    ensures GetNCells(ConstructDense(st, cellOf, ranks, ghostMarker, start, stop, opt)) == NumCells(st) + 1
    ensures forall c :: 0 <= c <= NumCells(st) ==>
      GetNelements(ConstructDense(st, cellOf, ranks, ghostMarker, start, stop, opt), c)
        == Count(ActiveCells(cellOf, start, stop), c)
    ensures GetNelements(ConstructDense(st, cellOf, ranks, ghostMarker, start, stop, opt), NumCells(st)) == 0
  {
    var cells := ActiveCells(cellOf, start, stop);
    var r := ConstructDense(st, cellOf, ranks, ghostMarker, start, stop, opt);
    if stop == SizeMax && start < |cellOf| {
      DenseConstructShape(st, cellOf, ranks, ghostMarker, start, stop, opt);
    }
    if |cells| == 0 {
      forall c | 0 <= c <= NumCells(st)
        ensures r.numPartInCell[c] == Count(cells, c)
      {
      }
    } else {
      NoCountAbove(cells, NumCells(st));
    }
  }

  lemma {:induction false} NoCountAbove(s: seq<nat>, k: nat)
    requires AllBelow(s, k)
    ensures Count(s, k) == 0
  {
    if |s| > 0 {
      NoCountAbove(s[..|s| - 1], k);
    }
  }

  /** No particles (`stop == start`, which covers `stop == 0`, or an empty
      input whatever `stop` says): the count and prefix-sum buffers are
      grid-cells+1 zeros, the cell/local buffer is resized to `stop - start`,
      and the construction returns before touching the cell-ordered array,
      the index maps or the domain list, which keep their previous content. */
  lemma DenseConstructEmpty(st: DenseState, cellOf: seq<nat>, ranks: seq<nat>, ghostMarker: nat,
                            start: nat, stop: nat, opt: ConstructOpt)
    requires ActiveRange(cellOf, start, stop, NumCells(st))
    requires ValidRanks(ActiveCells(cellOf, start, stop), ranks)
    requires start == ResolveStop(stop, |cellOf|) || |cellOf| == 0
    ensures var r := ConstructDense(st, cellOf, ranks, ghostMarker, start, stop, opt);
      |r.cellIndexLocalIndex| == ResolveStop(stop, |cellOf|) - start &&
      r.(cellIndexLocalIndex := st.cellIndexLocalIndex) ==
        st.(numPartInCell := Zeros(NumCells(st) + 1), numPartInCellPrefixSum := Zeros(NumCells(st) + 1))
  {
  }

  /** The prefix-sum buffer is the exclusive scan of the count buffer: entry
      `c` is the number of active particles in lower cells, and the entry of
      the extra slot is the number of active particles (`stop - start` for a
      non-empty input). */
  lemma DensePrefixSum(st: DenseState, cellOf: seq<nat>, ranks: seq<nat>, ghostMarker: nat,
                       start: nat, stop: nat, opt: ConstructOpt)
    requires ActiveRange(cellOf, start, stop, NumCells(st))
    requires ValidRanks(ActiveCells(cellOf, start, stop), ranks)
    ensures ConstructDense(st, cellOf, ranks, ghostMarker, start, stop, opt).numPartInCellPrefixSum
      == ExclusiveScan(ConstructDense(st, cellOf, ranks, ghostMarker, start, stop, opt).numPartInCell)
    ensures forall c :: 0 <= c <= NumCells(st) ==>
      ConstructDense(st, cellOf, ranks, ghostMarker, start, stop, opt).numPartInCellPrefixSum[c]
        == CountBelow(ActiveCells(cellOf, start, stop), c)
    ensures ConstructDense(st, cellOf, ranks, ghostMarker, start, stop, opt).numPartInCellPrefixSum[NumCells(st)]
      == |ActiveCells(cellOf, start, stop)|
    ensures |cellOf| > 0 ==>
      ConstructDense(st, cellOf, ranks, ghostMarker, start, stop, opt).numPartInCellPrefixSum[NumCells(st)]
        == ResolveStop(stop, |cellOf|) - start
  {
    var cells := ActiveCells(cellOf, start, stop);
    var r := ConstructDense(st, cellOf, ranks, ghostMarker, start, stop, opt);
    var numCells := NumCells(st);
    assert AllBelow(cells, numCells);
    AllBelowWeaken(cells, numCells);
    ScanOfCounts(cells, numCells + 1);
    CountBelowAtMostLength(cells, numCells);
    if |cells| == 0 {
      CountBelowZeroOnEmpty(cells, numCells);
      assert ExclusiveScan(Zeros(numCells + 1)) == Zeros(numCells + 1) by {
        ScanOfZeros(numCells + 1);
      }
    }
  }

  lemma CountBelowZeroOnEmpty(cells: seq<nat>, numCells: nat)
    requires |cells| == 0
    ensures forall c :: 0 <= c <= numCells ==> CountBelow(cells, c) == 0
  {
  }

  lemma ScanOfZeros(k: nat)
    ensures ExclusiveScan(Zeros(k)) == Zeros(k)
  {
    var z := Zeros(k);
    forall i | 0 <= i < k
      ensures ExclusiveScan(z)[i] == 0
    {
      SumOfZeros(z[..i]);
    }
  }

  lemma {:induction false} SumOfZeros(a: seq<nat>)
    requires forall i :: 0 <= i < |a| ==> a[i] == 0
    ensures Sum(a) == 0
  {
    if |a| > 0 {
      SumOfZeros(a[..|a| - 1]);
    }
  }

  /** The fields a non-empty construction writes, spelled out. */
  lemma DenseConstructShape(st: DenseState, cellOf: seq<nat>, ranks: seq<nat>, ghostMarker: nat,
                            start: nat, stop: nat, opt: ConstructOpt)
    requires ActiveRange(cellOf, start, stop, NumCells(st))
    requires ValidRanks(ActiveCells(cellOf, start, stop), ranks)
    requires start < ResolveStop(stop, |cellOf|) <= |cellOf|
    ensures var r := ConstructDense(st, cellOf, ranks, ghostMarker, start, stop, opt);
      var cells := ActiveCells(cellOf, start, stop);
      var c2p := CellOrder(cells, ranks, start);
      AllBelow(c2p, |cellOf|) &&
      r.numPartInCell == CellCounts(cells, NumCells(st) + 1) &&
      r.numPartInCellPrefixSum == ExclusiveScan(CellCounts(cells, NumCells(st) + 1)) &&
      r.cellIndexLocalIndexToPart == c2p && r.sortedToUnsortedIndex == c2p &&
      r.unsortedToSortedIndex == UnsortedToSorted(st.unsortedToSortedIndex, |cellOf|, c2p) &&
      r.indexSorted == (if opt == Full then DomainSlots(c2p, ghostMarker) else st.indexSorted)
  {
  }

  /** The bucket of `cell` in a non-empty construction, in terms of the
      counting sort. */
  lemma DenseBucketSetup(st: DenseState, cellOf: seq<nat>, ranks: seq<nat>, ghostMarker: nat,
                     start: nat, stop: nat, opt: ConstructOpt, cell: nat)
    requires ActiveRange(cellOf, start, stop, NumCells(st))
    requires ValidRanks(ActiveCells(cellOf, start, stop), ranks)
    requires start < ResolveStop(stop, |cellOf|) <= |cellOf|
    requires cell < NumCells(st)
    ensures var r := ConstructDense(st, cellOf, ranks, ghostMarker, start, stop, opt);
      var cells := ActiveCells(cellOf, start, stop);
      r.cellIndexLocalIndexToPart == CellOrder(cells, ranks, start) &&
      r.sortedToUnsortedIndex == CellOrder(cells, ranks, start) &&
      r.numPartInCellPrefixSum[cell] == CountBelow(cells, cell) &&
      r.numPartInCellPrefixSum[cell + 1] == CountBelow(cells, cell) + Count(cells, cell) &&
      GetNelements(r, cell) == Count(cells, cell)
  {
    var cells := ActiveCells(cellOf, start, stop);
    DenseConstructShape(st, cellOf, ranks, ghostMarker, start, stop, opt);
    DensePrefixSum(st, cellOf, ranks, ghostMarker, start, stop, opt);
    DenseConstructCounts(st, cellOf, ranks, ghostMarker, start, stop, opt);
    CountBelowStep(cells, cell);
  }

  /** `get(cell, ele)` with `ele` below the cell's count stays inside the
      cell-ordered array and returns an active particle of that cell. */
  lemma DenseGetInCell(st: DenseState, cellOf: seq<nat>, ranks: seq<nat>, ghostMarker: nat,
                     start: nat, stop: nat, opt: ConstructOpt, cell: nat)
    requires ActiveRange(cellOf, start, stop, NumCells(st))
    requires ValidRanks(ActiveCells(cellOf, start, stop), ranks)
    requires start < ResolveStop(stop, |cellOf|) <= |cellOf|
    requires cell < NumCells(st)
    ensures var r := ConstructDense(st, cellOf, ranks, ghostMarker, start, stop, opt);
      r.numPartInCellPrefixSum[cell] + GetNelements(r, cell) <= |r.cellIndexLocalIndexToPart| &&
      forall ele :: 0 <= ele < GetNelements(r, cell) ==>
        start <= Get(r, cell, ele) < ResolveStop(stop, |cellOf|) && cellOf[Get(r, cell, ele)] == cell
  {
    DenseBucketSetup(st, cellOf, ranks, ghostMarker, start, stop, opt, cell);
    BucketGetInCell(ConstructDense(st, cellOf, ranks, ghostMarker, start, stop, opt), cellOf, ranks, start, stop, cell);
  }

  /** Different elements of one cell are different particles. */
  lemma DenseGetDistinct(st: DenseState, cellOf: seq<nat>, ranks: seq<nat>, ghostMarker: nat,
                     start: nat, stop: nat, opt: ConstructOpt, cell: nat)
    requires ActiveRange(cellOf, start, stop, NumCells(st))
    requires ValidRanks(ActiveCells(cellOf, start, stop), ranks)
    requires start < ResolveStop(stop, |cellOf|) <= |cellOf|
    requires cell < NumCells(st)
    ensures var r := ConstructDense(st, cellOf, ranks, ghostMarker, start, stop, opt);
      r.numPartInCellPrefixSum[cell] + GetNelements(r, cell) <= |r.cellIndexLocalIndexToPart| &&
      forall e1, e2 :: 0 <= e1 < e2 < GetNelements(r, cell) ==> Get(r, cell, e1) != Get(r, cell, e2)
  {
    DenseBucketSetup(st, cellOf, ranks, ghostMarker, start, stop, opt, cell);
    BucketGetDistinct(ConstructDense(st, cellOf, ranks, ghostMarker, start, stop, opt), cellOf, ranks, start, stop, cell);
  }

  /** Every active particle of the cell is returned for some element. */
  lemma DenseGetComplete(st: DenseState, cellOf: seq<nat>, ranks: seq<nat>, ghostMarker: nat,
                     start: nat, stop: nat, opt: ConstructOpt, cell: nat)
    requires ActiveRange(cellOf, start, stop, NumCells(st))
    requires ValidRanks(ActiveCells(cellOf, start, stop), ranks)
    requires start < ResolveStop(stop, |cellOf|) <= |cellOf|
    requires cell < NumCells(st)
    ensures var r := ConstructDense(st, cellOf, ranks, ghostMarker, start, stop, opt);
      r.numPartInCellPrefixSum[cell] + GetNelements(r, cell) <= |r.cellIndexLocalIndexToPart| &&
      forall p :: start <= p < ResolveStop(stop, |cellOf|) && cellOf[p] == cell ==>
        exists ele :: 0 <= ele < GetNelements(r, cell) && Get(r, cell, ele) == p
  {
    DenseBucketSetup(st, cellOf, ranks, ghostMarker, start, stop, opt, cell);
    BucketGetComplete(ConstructDense(st, cellOf, ranks, ghostMarker, start, stop, opt), cellOf, ranks, start, stop, cell);
  }

  /** A state whose cell-ordered array and the counters of `cell` are those
      of a construction over the active particles. */
  ghost predicate BuiltBucket(r: DenseState, cellOf: seq<nat>, ranks: seq<nat>, start: nat, stop: nat, cell: nat)
    requires start <= ResolveStop(stop, |cellOf|) <= |cellOf|
  {
    var cells := ActiveCells(cellOf, start, stop);
    ValidRanks(cells, ranks) &&
    cell < |r.numPartInCell| && cell < |r.numPartInCellPrefixSum| &&
    r.cellIndexLocalIndexToPart == CellOrder(cells, ranks, start) &&
    r.numPartInCellPrefixSum[cell] == CountBelow(cells, cell) &&
    r.numPartInCell[cell] == Count(cells, cell)
  }

  lemma BucketGetInCell(r: DenseState, cellOf: seq<nat>, ranks: seq<nat>, start: nat, stop: nat, cell: nat)
    requires start <= ResolveStop(stop, |cellOf|) <= |cellOf|
    requires BuiltBucket(r, cellOf, ranks, start, stop, cell)
    ensures r.numPartInCellPrefixSum[cell] + GetNelements(r, cell) <= |r.cellIndexLocalIndexToPart|
    ensures forall ele :: 0 <= ele < GetNelements(r, cell) ==>
      start <= Get(r, cell, ele) < ResolveStop(stop, |cellOf|) && cellOf[Get(r, cell, ele)] == cell
  {
    var cells := ActiveCells(cellOf, start, stop);
    BucketBounds(cells, cell);
    forall ele: nat | ele < Count(cells, cell)
      ensures start <= Get(r, cell, ele) < start + |cells| && cellOf[Get(r, cell, ele)] == cell
    {
      BucketElementIn(cells, ranks, start, cell, ele);
      var g := BucketElement(cells, ranks, start, cell, ele);
      assert Get(r, cell, ele) == g;
      assert cells[g - start] == cellOf[g];
    }
  }

  lemma BucketGetDistinct(r: DenseState, cellOf: seq<nat>, ranks: seq<nat>, start: nat, stop: nat, cell: nat)
    requires start <= ResolveStop(stop, |cellOf|) <= |cellOf|
    requires BuiltBucket(r, cellOf, ranks, start, stop, cell)
    ensures r.numPartInCellPrefixSum[cell] + GetNelements(r, cell) <= |r.cellIndexLocalIndexToPart|
    ensures forall e1, e2 :: 0 <= e1 < e2 < GetNelements(r, cell) ==> Get(r, cell, e1) != Get(r, cell, e2)
  {
    var cells := ActiveCells(cellOf, start, stop);
    var lo := CountBelow(cells, cell);
    BucketContents(cells, ranks, start, cell);
    forall e1, e2 | 0 <= e1 < e2 < Count(cells, cell)
      ensures Get(r, cell, e1) != Get(r, cell, e2)
    {
      assert InBucket(cells, cell, lo + e1) && InBucket(cells, cell, lo + e2);
    }
  }

  lemma BucketGetComplete(r: DenseState, cellOf: seq<nat>, ranks: seq<nat>, start: nat, stop: nat, cell: nat)
    requires start <= ResolveStop(stop, |cellOf|) <= |cellOf|
    requires BuiltBucket(r, cellOf, ranks, start, stop, cell)
    ensures r.numPartInCellPrefixSum[cell] + GetNelements(r, cell) <= |r.cellIndexLocalIndexToPart|
    ensures forall p :: start <= p < ResolveStop(stop, |cellOf|) && cellOf[p] == cell ==>
      exists ele :: 0 <= ele < GetNelements(r, cell) && Get(r, cell, ele) == p
  {
    var cells := ActiveCells(cellOf, start, stop);
    BucketBounds(cells, cell);
    forall p | start <= p < start + |cells| && cellOf[p] == cell
      ensures exists ele :: 0 <= ele < Count(cells, cell) && Get(r, cell, ele) == p
    {
      assert cells[p - start] == cell;
      var e := BucketElementOf(cells, ranks, start, p - start);
      assert Get(r, cell, e) == BucketElement(cells, ranks, start, cell, e);
    }
  }

  /** A sorted slot lies in `[prefix[cell], prefix[cell+1])` exactly when the
      particle it holds is in `cell`. */
  lemma DenseBucketIff(st: DenseState, cellOf: seq<nat>, ranks: seq<nat>, ghostMarker: nat,
                     start: nat, stop: nat, opt: ConstructOpt, cell: nat)
    requires ActiveRange(cellOf, start, stop, NumCells(st))
    requires ValidRanks(ActiveCells(cellOf, start, stop), ranks)
    requires start < ResolveStop(stop, |cellOf|) <= |cellOf|
    requires cell < NumCells(st)
    ensures var r := ConstructDense(st, cellOf, ranks, ghostMarker, start, stop, opt);
      |r.sortedToUnsortedIndex| == ResolveStop(stop, |cellOf|) - start &&
      forall s :: 0 <= s < |r.sortedToUnsortedIndex| ==>
        ((r.numPartInCellPrefixSum[cell] <= s < r.numPartInCellPrefixSum[cell + 1])
          <==> cellOf[r.sortedToUnsortedIndex[s]] == cell)
  {
    var cells := ActiveCells(cellOf, start, stop);
    var c2p := CellOrder(cells, ranks, start);
    DenseBucketSetup(st, cellOf, ranks, ghostMarker, start, stop, opt, cell);
    BucketsPartitionSlots(cells, ranks, start);
    forall s | 0 <= s < |cells|
      ensures InBucket(cells, cell, s) <==> cellOf[c2p[s]] == cell
    {
      assert InBucket(cells, cell, s) <==> cells[c2p[s] - start] == cell;
    }
  }

  /** Index maps: sorted-to-unsorted has `stop - start` entries and is the
      cell-ordered array, unsorted-to-sorted covers the whole input, the two
      are inverse on the active range, and unsorted-to-sorted entries outside
      the active range keep their previous value (entries the resize adds are
      left unspecified). */
  lemma DenseIndexMaps(st: DenseState, cellOf: seq<nat>, ranks: seq<nat>, ghostMarker: nat,
                       start: nat, stop: nat, opt: ConstructOpt)
    requires ActiveRange(cellOf, start, stop, NumCells(st))
    requires ValidRanks(ActiveCells(cellOf, start, stop), ranks)
    requires start < ResolveStop(stop, |cellOf|) <= |cellOf|
    ensures var r := ConstructDense(st, cellOf, ranks, ghostMarker, start, stop, opt);
      var stop' := ResolveStop(stop, |cellOf|);
      |r.sortedToUnsortedIndex| == stop' - start &&
      |r.unsortedToSortedIndex| == |cellOf| &&
      r.sortedToUnsortedIndex == r.cellIndexLocalIndexToPart &&
      (forall s :: 0 <= s < |r.sortedToUnsortedIndex| ==>
        start <= r.sortedToUnsortedIndex[s] < stop' &&
        r.unsortedToSortedIndex[r.sortedToUnsortedIndex[s]] == s) &&
      (forall u :: start <= u < stop' ==>
        r.unsortedToSortedIndex[u] < |r.sortedToUnsortedIndex| &&
        r.sortedToUnsortedIndex[r.unsortedToSortedIndex[u]] == u) &&
      (forall u :: 0 <= u < |cellOf| && u < |st.unsortedToSortedIndex| && !(start <= u < stop') ==>
        r.unsortedToSortedIndex[u] == st.unsortedToSortedIndex[u])
  {
    var cells := ActiveCells(cellOf, start, stop);
    DenseConstructShape(st, cellOf, ranks, ghostMarker, start, stop, opt);
    CellOrderSlots(cells, ranks, start);
    CellOrderOnto(cells, ranks, start);
    IndexMapsInverse(st.unsortedToSortedIndex, |cellOf|, CellOrder(cells, ranks, start), start);
  }

  /** Domain list: with `opt == Full` it holds, in increasing order, exactly
      the sorted slots whose unsorted index is below the ghost marker passed to
      the construction; with any other option the previous list is kept. */
  lemma DenseDomainIds(st: DenseState, cellOf: seq<nat>, ranks: seq<nat>, ghostMarker: nat,
                       start: nat, stop: nat, opt: ConstructOpt)
    requires ActiveRange(cellOf, start, stop, NumCells(st))
    requires ValidRanks(ActiveCells(cellOf, start, stop), ranks)
    requires start < ResolveStop(stop, |cellOf|) <= |cellOf|
    ensures var r := ConstructDense(st, cellOf, ranks, ghostMarker, start, stop, opt);
      var n := ResolveStop(stop, |cellOf|) - start;
      |r.sortedToUnsortedIndex| == n &&
      (opt == Full ==>
        StrictlyIncreasing(r.indexSorted) &&
        forall s :: s in r.indexSorted <==> 0 <= s < n && r.sortedToUnsortedIndex[s] < ghostMarker) &&
      (opt != Full ==> r.indexSorted == st.indexSorted)
  {
    var cells := ActiveCells(cellOf, start, stop);
    var r := ConstructDense(st, cellOf, ranks, ghostMarker, start, stop, opt);
    var c2p := CellOrder(cells, ranks, start);
    DenseConstructShape(st, cellOf, ranks, ghostMarker, start, stop, opt);
    assert r.sortedToUnsortedIndex == c2p;
    DomainSlotsSpec(c2p, ghostMarker);
    if opt == Full {
      assert r.indexSorted == DomainSlots(c2p, ghostMarker);
      assert StrictlyIncreasing(r.indexSorted);
      forall s
        ensures s in r.indexSorted <==> 0 <= s < |cells| && c2p[s] < ghostMarker
      {
      }
    }
  }

  /** Construction rebuilds from scratch: running it twice with the same
      arguments gives the state of running it once. */
  lemma DenseConstructIdempotent(st: DenseState, cellOf: seq<nat>, ranks: seq<nat>, ghostMarker: nat,
                                 start: nat, stop: nat, opt: ConstructOpt)
    requires ActiveRange(cellOf, start, stop, NumCells(st))
    requires ValidRanks(ActiveCells(cellOf, start, stop), ranks)
    ensures var r := ConstructDense(st, cellOf, ranks, ghostMarker, start, stop, opt);
      ActiveRange(cellOf, start, stop, NumCells(r)) &&
      ConstructDense(r, cellOf, ranks, ghostMarker, start, stop, opt) == r
  {
    var r := ConstructDense(st, cellOf, ranks, ghostMarker, start, stop, opt);
    var stop' := ResolveStop(stop, |cellOf|);
    assert NumCells(r) == NumCells(st);
    assert Resize(r.cellIndexLocalIndex, stop' - start, CellLocal(0, 0)) == r.cellIndexLocalIndex;
    if start < stop' && |cellOf| > 0 {
      var cells := ActiveCells(cellOf, start, stop);
      var s2u := CellOrder(cells, ranks, start);
      DenseConstructShape(st, cellOf, ranks, ghostMarker, start, stop, opt);
      DenseConstructShape(r, cellOf, ranks, ghostMarker, start, stop, opt);
      CellOrderMapStable(st.unsortedToSortedIndex, |cellOf|, cells, ranks, start);
    }
  }

  /** Occupancy of the scenario's cells. */
  lemma ScenarioCounts()
    ensures forall c :: Count([0, 0, 1, 35], c) == (if c == 0 then 2 else if c == 1 || c == 35 then 1 else 0)
  {
    var s4: seq<nat> := [0, 0, 1, 35];
    var s3: seq<nat> := [0, 0, 1];
    var s2: seq<nat> := [0, 0];
    var s1: seq<nat> := [0];
    var s0: seq<nat> := [];
    assert s4[..3] == s3 && s3[..2] == s2 && s2[..1] == s1 && s1[..0] == s0;
    forall c
      ensures Count(s4, c) == (if c == 0 then 2 else if c == 1 || c == 35 then 1 else 0)
    {
      assert Count(s1, c) == (if c == 0 then 1 else 0);
      assert Count(s2, c) == (if c == 0 then 2 else 0);
      assert Count(s3, c) == (if c == 0 then 2 else if c == 1 then 1 else 0);
    }
  }

  /** The scenario of four particles in cells (0,0), (0,0), (1,0) and (5,5)
      of an unpadded 6x6 grid (linear ids 0, 0, 1 and 35): the counts are
      2, 1 and 1 at those ids and 0 elsewhere, and cell (0,0) returns the first
      two particles, in either order. */
  lemma DenseScenario(st: DenseState, ranks: seq<nat>)
    requires st.decomposer.gridSize == [6, 6]
    requires ValidRanks([0, 0, 1, 35], ranks)
    ensures NumCells(st) == 36 && ActiveCells([0, 0, 1, 35], 0, SizeMax) == [0, 0, 1, 35] &&
      var r := ConstructDense(st, [0, 0, 1, 35], ranks, 4, 0, SizeMax, Full);
      GetNelements(r, 0) == 2 && GetNelements(r, 1) == 1 && GetNelements(r, 35) == 1 &&
      (forall c :: 2 <= c < 35 ==> GetNelements(r, c) == 0) &&
      r.numPartInCellPrefixSum[0] + 1 < |r.cellIndexLocalIndexToPart| &&
      {Get(r, 0, 0), Get(r, 0, 1)} == {0, 1}
  {
    var cellOf: seq<nat> := [0, 0, 1, 35];
    assert GridCells([6, 6]) == 36 by {
      assert [6, 6][1..] == [6];
      assert GridCells([6]) == 6 by {
        assert [6][1..] == [];
      }
    }
    assert ActiveCells(cellOf, 0, SizeMax) == cellOf;
    assert ActiveRange(cellOf, 0, SizeMax, NumCells(st));
    var r := ConstructDense(st, cellOf, ranks, 4, 0, SizeMax, Full);
    DenseConstructCounts(st, cellOf, ranks, 4, 0, SizeMax, Full);
    DenseGetInCell(st, cellOf, ranks, 4, 0, SizeMax, Full, 0);
    DenseGetDistinct(st, cellOf, ranks, 4, 0, SizeMax, Full, 0);
    ScenarioCounts();
    var a, b := Get(r, 0, 0), Get(r, 0, 1);
    assert a < 2 && b < 2 && a != b;
  }

  // ---------------------------------------------------------------------
  // Bookkeeping

  /** `clear`: empties the counts, the cell-ordered array, the prefix sums,
      the cell/local pairs and the sorted-to-unsorted map; nothing else, the
      domain list and the unsorted-to-sorted map included, is cleared. */
  function Clear(st: DenseState): (r: DenseState)
    ensures GetNCells(r) == 0 && |r.numPartInCellPrefixSum| == 0
    ensures |r.cellIndexLocalIndexToPart| == 0 && |r.sortedToUnsortedIndex| == 0 && |r.cellIndexLocalIndex| == 0
    ensures r.indexSorted == st.indexSorted && r.unsortedToSortedIndex == st.unsortedToSortedIndex
    ensures r.ghostMarker == st.ghostMarker && r.nDecRefRedec == st.nDecRefRedec
    ensures r.decomposer == st.decomposer && r.boxNeighborCellOffset == st.boxNeighborCellOffset
    ensures r.(numPartInCell := st.numPartInCell, cellIndexLocalIndexToPart := st.cellIndexLocalIndexToPart,
               numPartInCellPrefixSum := st.numPartInCellPrefixSum, cellIndexLocalIndex := st.cellIndexLocalIndex,
               sortedToUnsortedIndex := st.sortedToUnsortedIndex) == st
  {
    st.(numPartInCell := [], cellIndexLocalIndexToPart := [], numPartInCellPrefixSum := [],
        cellIndexLocalIndex := [], sortedToUnsortedIndex := [])
  }

  /** `get_gm`. */
  function GetGm(st: DenseState): nat
  {
    st.ghostMarker
  }

  /** `set_gm`: `get_gm` returns the value set, and nothing else changes. */
  function SetGm(st: DenseState, ghostMarker: nat): (r: DenseState)
    ensures GetGm(r) == ghostMarker
    ensures r.(ghostMarker := st.ghostMarker) == st
  {
    st.(ghostMarker := ghostMarker)
  }

  /** `get_ndec`. */
  function GetNdec(st: DenseState): nat
  {
    st.nDecRefRedec
  }

  /** `set_ndec`: `get_ndec` returns the value set, and nothing else changes. */
  function SetNdec(st: DenseState, nDecRefRedec: nat): (r: DenseState)
    ensures GetNdec(r) == nDecRefRedec
    ensures r.(nDecRefRedec := st.nDecRefRedec) == st
  {
    st.(nDecRefRedec := nDecRefRedec)
  }

  /** `setBoxNN`: records the per-side neighbour count and rebuilds the box
      stencil for it; a following `resetBoxNN` changes nothing. */
  function SetBoxNN(st: DenseState, n: nat): (r: DenseState)
    ensures r.boxNeighborNumber == n
    ensures |r.boxNeighborCellOffset| == Pow(2 * n + 1, |st.decomposer.gridSize|)
    ensures ResetBoxNN(r) == r
    ensures r.(boxNeighborNumber := st.boxNeighborNumber, boxNeighborCellOffset := st.boxNeighborCellOffset) == st
  {
    ConstructNeighborCellOffset(st.(boxNeighborNumber := n), n)
  }

  /** `resetBoxNN`: rebuilds the box stencil for the recorded neighbour count. */
  function ResetBoxNN(st: DenseState): (r: DenseState)
    ensures |r.boxNeighborCellOffset| == Pow(2 * st.boxNeighborNumber + 1, |st.decomposer.gridSize|)
    ensures r.(boxNeighborCellOffset := st.boxNeighborCellOffset) == st
  {
    ConstructNeighborCellOffset(st, st.boxNeighborNumber)
  }

  /** `swap`: exchanges the decomposer, all seven buffers, the cell geometry
      arrays, the ghost marker and `nDecRefRedec`. The box stencil, its
      neighbour count and the radius stencil are not exchanged. */
  function Swap(a: DenseState, b: DenseState): (r: (DenseState, DenseState))
    ensures r.0 == b.(boxNeighborNumber := a.boxNeighborNumber,
                      boxNeighborCellOffset := a.boxNeighborCellOffset,
                      rcutNeighborCellOffset := a.rcutNeighborCellOffset)
    ensures r.1 == a.(boxNeighborNumber := b.boxNeighborNumber,
                      boxNeighborCellOffset := b.boxNeighborCellOffset,
                      rcutNeighborCellOffset := b.rcutNeighborCellOffset)
  {
    (a.(decomposer := b.decomposer, numPartInCell := b.numPartInCell,
        cellIndexLocalIndexToPart := b.cellIndexLocalIndexToPart,
        numPartInCellPrefixSum := b.numPartInCellPrefixSum, cellIndexLocalIndex := b.cellIndexLocalIndex,
        sortedToUnsortedIndex := b.sortedToUnsortedIndex, indexSorted := b.indexSorted,
        unsortedToSortedIndex := b.unsortedToSortedIndex, unitCellP2 := b.unitCellP2,
        numCellDim := b.numCellDim, cellPadDim := b.cellPadDim,
        ghostMarker := b.ghostMarker, nDecRefRedec := b.nDecRefRedec),
     b.(decomposer := a.decomposer, numPartInCell := a.numPartInCell,
        cellIndexLocalIndexToPart := a.cellIndexLocalIndexToPart,
        numPartInCellPrefixSum := a.numPartInCellPrefixSum, cellIndexLocalIndex := a.cellIndexLocalIndex,
        sortedToUnsortedIndex := a.sortedToUnsortedIndex, indexSorted := a.indexSorted,
        unsortedToSortedIndex := a.unsortedToSortedIndex, unitCellP2 := a.unitCellP2,
        numCellDim := a.numCellDim, cellPadDim := a.cellPadDim,
        ghostMarker := a.ghostMarker, nDecRefRedec := a.nDecRefRedec))
  }

  /** Swapping twice restores both cell lists; after one swap each answers
      the queries (`getNCells`, `get`, the index maps, the domain list, the
      markers) as the other did, while each keeps its own box stencil. */
  lemma DenseSwapSpec(a: DenseState, b: DenseState)
    ensures Swap(Swap(a, b).0, Swap(a, b).1) == (a, b)
    ensures var (a', b') := Swap(a, b);
      GetNCells(a') == GetNCells(b) && GetNCells(b') == GetNCells(a) &&
      a'.numPartInCellPrefixSum == b.numPartInCellPrefixSum &&
      a'.cellIndexLocalIndexToPart == b.cellIndexLocalIndexToPart &&
      a'.sortedToUnsortedIndex == b.sortedToUnsortedIndex &&
      a'.unsortedToSortedIndex == b.unsortedToSortedIndex && a'.indexSorted == b.indexSorted &&
      GetGm(a') == GetGm(b) && GetGm(b') == GetGm(a) && GetNdec(a') == GetNdec(b) && GetNdec(b') == GetNdec(a)
    ensures var (a', b') := Swap(a, b);
      a'.boxNeighborNumber == a.boxNeighborNumber && a'.boxNeighborCellOffset == a.boxNeighborCellOffset &&
      b'.boxNeighborNumber == b.boxNeighborNumber && b'.boxNeighborCellOffset == b.boxNeighborCellOffset
  {
  }

  /** Copy `operator=`: the destination becomes a copy of the source except
      for the box stencil, its neighbour count and the radius stencil, which
      are not copied. */
  function Assign(dst: DenseState, src: DenseState): (r: DenseState)
    ensures r == src.(boxNeighborNumber := dst.boxNeighborNumber,
                      boxNeighborCellOffset := dst.boxNeighborCellOffset,
                      rcutNeighborCellOffset := dst.rcutNeighborCellOffset)
  {
    dst.(decomposer := src.decomposer, numPartInCell := src.numPartInCell,
         cellIndexLocalIndexToPart := src.cellIndexLocalIndexToPart,
         numPartInCellPrefixSum := src.numPartInCellPrefixSum, cellIndexLocalIndex := src.cellIndexLocalIndex,
         sortedToUnsortedIndex := src.sortedToUnsortedIndex, indexSorted := src.indexSorted,
         unsortedToSortedIndex := src.unsortedToSortedIndex, unitCellP2 := src.unitCellP2,
         numCellDim := src.numCellDim, cellPadDim := src.cellPadDim,
         ghostMarker := src.ghostMarker, nDecRefRedec := src.nDecRefRedec)
  }

  /** Move `operator=`: the decomposer and the buffers are swapped, the cell
      geometry arrays and markers are copied. Returns the new destination and
      the new source. */
  function MoveAssign(dst: DenseState, src: DenseState): (r: (DenseState, DenseState))
    ensures r.0 == Assign(dst, src)
    ensures r.1 == dst.(boxNeighborNumber := src.boxNeighborNumber,
                        boxNeighborCellOffset := src.boxNeighborCellOffset,
                        rcutNeighborCellOffset := src.rcutNeighborCellOffset,
                        unitCellP2 := src.unitCellP2, numCellDim := src.numCellDim,
                        cellPadDim := src.cellPadDim, ghostMarker := src.ghostMarker,
                        nDecRefRedec := src.nDecRefRedec)
  {
    var (d, s) := Swap(dst, src);
    (d, s.(unitCellP2 := src.unitCellP2, numCellDim := src.numCellDim, cellPadDim := src.cellPadDim,
           ghostMarker := src.ghostMarker, nDecRefRedec := src.nDecRefRedec))
  }

  /** Moving gives the destination the same state as copying, and leaves in
      the source the destination's former decomposer and buffers. */
  lemma DenseMoveAssignSpec(dst: DenseState, src: DenseState)
    ensures MoveAssign(dst, src).0 == Assign(dst, src)
    ensures var s := MoveAssign(dst, src).1;
      s.decomposer == dst.decomposer && s.numPartInCell == dst.numPartInCell &&
      s.numPartInCellPrefixSum == dst.numPartInCellPrefixSum &&
      s.cellIndexLocalIndexToPart == dst.cellIndexLocalIndexToPart &&
      s.sortedToUnsortedIndex == dst.sortedToUnsortedIndex &&
      s.unsortedToSortedIndex == dst.unsortedToSortedIndex && s.indexSorted == dst.indexSorted &&
      s.ghostMarker == src.ghostMarker && s.nDecRefRedec == src.nDecRefRedec
  {
  }
}

=== FILE: domain.dfy ===
/** `construct_domain_ids`: compaction of the sorted slots that hold domain
    particles (unsorted index below the ghost marker) by a flag array, an
    in-place exclusive scan and a scattered gather. */
module Domain {
  import opened Seqs
  import opened Scan

  /** `isSortedIndexOrGhost` after `mark_domain_particles`: one flag per sorted
      slot plus an extra slot, which only gives the exclusive scan its last
      entry, the total of the flags before it. The scan never reads the extra
      slot, so its value (0 here, left unwritten by the kernel) is immaterial. */
  function MarkDomain(s2u: seq<nat>, ghostMarker: nat): (r: seq<nat>)
    ensures |r| == |s2u| + 1
  {
    seq(|s2u| + 1, s requires 0 <= s <= |s2u| => if s < |s2u| && s2u[s] < ghostMarker then 1 else 0)
  }

  /** The sorted slots below `k` that hold a domain particle, in increasing order. */
  function DomainSlotsBelow(s2u: seq<nat>, ghostMarker: nat, k: nat): seq<nat>
    requires k <= |s2u|
  {
    if k == 0 then []
    else DomainSlotsBelow(s2u, ghostMarker, k - 1) + (if s2u[k - 1] < ghostMarker then [k - 1] else [])
  }

  /** Reference definition of `indexSorted`. */
  function DomainSlots(s2u: seq<nat>, ghostMarker: nat): seq<nat>
  {
    DomainSlotsBelow(s2u, ghostMarker, |s2u|)
  }

  lemma DomainSlotsBelowSpec(s2u: seq<nat>, ghostMarker: nat, k: nat)
    requires k <= |s2u|
    ensures StrictlyIncreasing(DomainSlotsBelow(s2u, ghostMarker, k))
    ensures forall s :: s in DomainSlotsBelow(s2u, ghostMarker, k) <==> 0 <= s < k && s2u[s] < ghostMarker
    ensures |DomainSlotsBelow(s2u, ghostMarker, k)| == ExclusiveScan(MarkDomain(s2u, ghostMarker))[k]
  {
    DomainSlotsBelowMembers(s2u, ghostMarker, k);
    DomainSlotsBelowIncreasing(s2u, ghostMarker, k);
    DomainSlotsBelowLength(s2u, ghostMarker, k);
  }

  lemma {:induction false} DomainSlotsBelowMembers(s2u: seq<nat>, ghostMarker: nat, k: nat)
    requires k <= |s2u|
    ensures forall s :: s in DomainSlotsBelow(s2u, ghostMarker, k) <==> 0 <= s < k && s2u[s] < ghostMarker
  {
    if k > 0 {
      DomainSlotsBelowMembers(s2u, ghostMarker, k - 1);
      var prev := DomainSlotsBelow(s2u, ghostMarker, k - 1);
      var tail: seq<nat> := if s2u[k - 1] < ghostMarker then [k - 1] else [];
      assert DomainSlotsBelow(s2u, ghostMarker, k) == prev + tail;
      forall s
        ensures s in prev + tail <==> 0 <= s < k && s2u[s] < ghostMarker
      {
        assert s in prev + tail <==> s in prev || s in tail;
      }
    }
  }

  lemma {:induction false} DomainSlotsBelowIncreasing(s2u: seq<nat>, ghostMarker: nat, k: nat)
    requires k <= |s2u|
    ensures StrictlyIncreasing(DomainSlotsBelow(s2u, ghostMarker, k))
  {
    if k > 0 {
      DomainSlotsBelowIncreasing(s2u, ghostMarker, k - 1);
      DomainSlotsBelowMembers(s2u, ghostMarker, k - 1);
      var prev := DomainSlotsBelow(s2u, ghostMarker, k - 1);
      var tail: seq<nat> := if s2u[k - 1] < ghostMarker then [k - 1] else [];
      var d := DomainSlotsBelow(s2u, ghostMarker, k);
      assert d == prev + tail;
      forall i, j | 0 <= i < j < |d|
        ensures d[i] < d[j]
      {
        if j < |prev| {
          assert d[i] == prev[i] && d[j] == prev[j];
        } else {
          assert d[i] == prev[i] && prev[i] in prev;
        }
      }
    }
  }

  lemma {:induction false} DomainSlotsBelowLength(s2u: seq<nat>, ghostMarker: nat, k: nat)
    requires k <= |s2u|
    ensures |DomainSlotsBelow(s2u, ghostMarker, k)| == ExclusiveScan(MarkDomain(s2u, ghostMarker))[k]
  {
    if k > 0 {
      DomainSlotsBelowLength(s2u, ghostMarker, k - 1);
      var flags := MarkDomain(s2u, ghostMarker);
      assert ExclusiveScan(flags)[k] == ExclusiveScan(flags)[k - 1] + flags[k - 1];
    }
  }

  lemma {:induction false} NoDomainBelowZero(s2u: seq<nat>, k: nat)
    requires k <= |s2u|
    ensures DomainSlotsBelow(s2u, 0, k) == []
  {
    if k > 0 {
      NoDomainBelowZero(s2u, k - 1);
    }
  }

  /** The domain list is ordered and complete: a slot is listed if and only if
      its particle's unsorted index is below the ghost marker, slots appear in
      increasing order, and the list is as long as the last entry of the
      scanned flags. */
  lemma DomainSlotsSpec(s2u: seq<nat>, ghostMarker: nat)
    ensures StrictlyIncreasing(DomainSlots(s2u, ghostMarker))
    ensures forall s :: s in DomainSlots(s2u, ghostMarker) <==> 0 <= s < |s2u| && s2u[s] < ghostMarker
    ensures |DomainSlots(s2u, ghostMarker)| == ExclusiveScan(MarkDomain(s2u, ghostMarker))[|s2u|]
  {
    DomainSlotsBelowSpec(s2u, ghostMarker, |s2u|);
  }

  /** Edge cases: a marker above every unsorted index makes every slot a
      domain slot; a marker of 0 makes the list empty. */
  lemma DomainSlotsEdges(s2u: seq<nat>, ghostMarker: nat)
    ensures (forall s :: 0 <= s < |s2u| ==> s2u[s] < ghostMarker) ==>
      DomainSlots(s2u, ghostMarker) == Ids(0, |s2u|)
    ensures ghostMarker == 0 ==> DomainSlots(s2u, ghostMarker) == []
  {
    if forall s :: 0 <= s < |s2u| ==> s2u[s] < ghostMarker {
      AllBelowMarker(s2u, ghostMarker, |s2u|);
    }
    if ghostMarker == 0 {
      NoDomainBelowZero(s2u, |s2u|);
    }
  }

  lemma {:induction false} AllBelowMarker(s2u: seq<nat>, ghostMarker: nat, k: nat)
    requires k <= |s2u|
    requires forall s :: 0 <= s < |s2u| ==> s2u[s] < ghostMarker
    ensures DomainSlotsBelow(s2u, ghostMarker, k) == Ids(0, k)
  {
    if k > 0 {
      AllBelowMarker(s2u, ghostMarker, k - 1);
    }
  }

  /** Sequential counterpart of `construct_domain_ids`: flag, scan in place,
      read back the last entry as the list length, then let every slot whose
      scanned value steps up write itself at its scanned position (kernel
      `collect_domain_ghost_ids`). The result is the reference domain list. */
  method ConstructDomainIds(s2u: seq<nat>, ghostMarker: nat) returns (indexSorted: seq<nat>)
    ensures indexSorted == DomainSlots(s2u, ghostMarker)
  {
    var flags := MarkDomain(s2u, ghostMarker);
    var scan := ScanInPlace(flags);
    var total := scan[|scan| - 1];
    indexSorted := Zeros(total);
    DomainSlotsSpec(s2u, ghostMarker);
    var s := 0;
    while s < |s2u|
      invariant 0 <= s <= |s2u|
      invariant |indexSorted| == total
      invariant scan[s] <= total
      invariant indexSorted[..scan[s]] == DomainSlotsBelow(s2u, ghostMarker, s)
    {
      DomainSlotsBelowSpec(s2u, ghostMarker, s + 1);
      ScanMonotone(flags, s + 1, |s2u|);
      if scan[s + 1] != scan[s] {
        indexSorted := indexSorted[scan[s] := s];
      }
      s := s + 1;
    }
  }
}

=== FILE: geometry.dfy ===
/** The part of the cell decomposer the builders consume, and the box
    neighbourhood stencil. Positions, the coordinate transform and the cell
    geometry stay outside the model: construction receives one linear cell
    id per particle. */
module Geometry {

  /** The decomposer base: padded grid extents (`cellListGrid.getSize()`)
      and the upper corner of one cell box (`getCellBox().getP2()`). */
  datatype Decomposer = Decomposer(gridSize: seq<nat>, cellBoxP2: seq<real>)

  /** `cellListGrid.size()`: the number of cells of the padded grid. */
  function GridCells(gridSize: seq<nat>): nat
  {
    if |gridSize| == 0 then 1 else gridSize[0] * GridCells(gridSize[1..])
  }

  /** Linear-id strides of a row-major grid whose first coordinate varies fastest. */
  function Strides(gridSize: seq<nat>): (r: seq<int>)
    ensures |r| == |gridSize|
  {
    if |gridSize| == 0 then []
    else [1] + seq(|gridSize| - 1, i requires 0 <= i < |gridSize| - 1 => gridSize[0] * Strides(gridSize[1..])[i])
  }

  function Pow(b: nat, e: nat): nat
  {
    if e == 0 then 1 else b * Pow(b, e - 1)
  }

  /** Every offset of `rest`, shifted by `d` cells along the axis of `stride`. */
  function Shifted(d: int, stride: int, rest: seq<int>): (r: seq<int>)
    ensures |r| == |rest|
  {
    seq(|rest|, k requires 0 <= k < |rest| => d * stride + rest[k])
  }

  /** The layers `-n, ..., -n + m - 1` along one axis. */
  function Layers(n: nat, m: nat, stride: int, rest: seq<int>): (r: seq<int>)
    ensures |r| == m * |rest|
  {
    if m == 0 then [] else Layers(n, m - 1, stride, rest) + Shifted(m - 1 - n, stride, rest)
  }

  /** Model of `NNcalc_box`: the linear offsets (relative to the middle cell)
      of every cell at most `n` cells away along each axis. */
  function BoxStencil(n: nat, strides: seq<int>): seq<int>
  {
    if |strides| == 0 then [0] else Layers(n, 2 * n + 1, strides[0], BoxStencil(n, strides[1..]))
  }

  /** The box stencil has `(2n+1)^dim` entries and contains the middle cell itself. */
  lemma {:induction false} BoxStencilShape(n: nat, strides: seq<int>)
    ensures |BoxStencil(n, strides)| == Pow(2 * n + 1, |strides|)
    ensures 0 in BoxStencil(n, strides)
  {
    if |strides| > 0 {
      var rest := BoxStencil(n, strides[1..]);
      BoxStencilShape(n, strides[1..]);
      var k :| 0 <= k < |rest| && rest[k] == 0;
      LayerHoldsShift(n, 2 * n + 1, strides[0], rest, n);
      assert Shifted(0, strides[0], rest)[k] == 0;
    }
  }

  /** Layer `j` (displacement `j - n`) is part of the first `m` layers. */
  lemma {:induction false} LayerHoldsShift(n: nat, m: nat, stride: int, rest: seq<int>, j: nat)
    requires j < m
    ensures forall x :: x in Shifted(j - n, stride, rest) ==> x in Layers(n, m, stride, rest)
  {
    if j < m - 1 {
      LayerHoldsShift(n, m - 1, stride, rest, j);
    }
  }
}

/** What one `construct` call receives besides the particles' cell ids. */
module BuildInputs {

  /** `(size_t)-1`, the default `stop` meaning "up to the last particle". */
  const SizeMax: nat := 0xFFFF_FFFF_FFFF_FFFF

  /** `cl_construct_opt`: a full build also rebuilds the domain list. */
  datatype ConstructOpt = Full | OnlyReorder

  /** The `stop` the construction works with. */
  function ResolveStop(stop: nat, numParticles: nat): nat
  {
    if stop == SizeMax then numParticles else stop
  }

  /** `getGPUIteratorTo(last)` launches `last + 1` threads; a negative `last`
      (a `size_t` difference that wrapped, read back as a signed index)
      launches none, which the builders test as `wthr.x == 0`. */
  predicate NoThreads(last: int)
  {
    last < 0
  }

  /** The active range is a range of the input, or the input is empty (both
      builders then return before reading it, whatever `stop` says), and
      every active particle's cell id is a cell of the grid. */
  predicate ActiveRange(cellOf: seq<nat>, start: nat, stop: nat, numCells: nat)
  {
    start <= ResolveStop(stop, |cellOf|) &&
    (|cellOf| > 0 ==> ResolveStop(stop, |cellOf|) <= |cellOf|) &&
    forall p :: start <= p < ResolveStop(stop, |cellOf|) && p < |cellOf| ==> cellOf[p] < numCells
  }

  /** The cell ids of the active particles, in unsorted order; none when the
      input is empty. */
  function ActiveCells(cellOf: seq<nat>, start: nat, stop: nat): (r: seq<nat>)
    requires start <= ResolveStop(stop, |cellOf|)
    requires |cellOf| > 0 ==> ResolveStop(stop, |cellOf|) <= |cellOf|
    ensures |cellOf| > 0 ==> |r| == ResolveStop(stop, |cellOf|) - start
    ensures |cellOf| == 0 ==> r == []
  {
    if |cellOf| == 0 then [] else cellOf[start..ResolveStop(stop, |cellOf|)]
  }
}

=== FILE: placement.dfy ===
/** Second half of the counting sort, shared by the dense and the sparse
    builder: every active particle is written to slot
    `(particles in lower cells) + localRank` (kernel `fill_cells`, and the
    flush of the sparse vector), and the two index maps are derived from the
    result (kernel `reorderParticles`). Active particle `i` is stored as
    `start + i`: the dense builder passes its `start`, the sparse builder's
    flush stores indices inside the active range, i.e. `start = 0`. */
module Placement {
  import opened Seqs
  import opened Counting

  /** Target slot of each active particle. */
  function SlotsOf(cells: seq<nat>, ranks: seq<nat>): (r: seq<nat>)
    requires |ranks| == |cells|
    ensures |r| == |cells|
  {
    seq(|cells|, i requires 0 <= i < |cells| => CountBelow(cells, cells[i]) + ranks[i])
  }

  /** Slot `s` lies in the bucket of cell `c`: after all particles of lower
      cells and before all particles of higher cells. */
  predicate InBucket(cells: seq<nat>, c: nat, s: nat)
  {
    CountBelow(cells, c) <= s < CountBelow(cells, c) + Count(cells, c)
  }

  /** For any legal interleaving the slots are a permutation of
      `[0, #particles)`, and each particle's slot lies in its cell's bucket. */
  lemma SlotsPermutation(cells: seq<nat>, ranks: seq<nat>)
    requires ValidRanks(cells, ranks)
    ensures AllBelow(SlotsOf(cells, ranks), |cells|)
    ensures Injective(SlotsOf(cells, ranks))
    ensures forall s :: 0 <= s < |cells| ==> Hits(SlotsOf(cells, ranks), s)
    ensures forall i :: 0 <= i < |cells| ==> InBucket(cells, cells[i], SlotsOf(cells, ranks)[i])
  {
    var slots := SlotsOf(cells, ranks);
    forall i | 0 <= i < |cells|
      ensures InBucket(cells, cells[i], slots[i]) && slots[i] < |cells|
    {
      CountBelowStep(cells, cells[i]);
      CountBelowAtMostLength(cells, cells[i] + 1);
    }
    forall i, j | 0 <= i < |cells| && 0 <= j < |cells| && cells[i] < cells[j]
      ensures slots[i] < slots[j]
    {
      CountBelowStep(cells, cells[i]);
      CountBelowMonotone(cells, cells[i] + 1, cells[j]);
    }
    InjectiveOnto(slots);
  }

  /** `cellIndexLocalIndexToPart`: slot `slots[i]` receives unsorted index
      `start + i`; every slot is written, so the buffer's previous content
      does not show through. */
  function Place(slots: seq<nat>, start: nat): (r: seq<nat>)
    requires AllBelow(slots, |slots|)
    ensures |r| == |slots|
  {
    Scatter(Zeros(|slots|), slots, Ids(start, |slots|))
  }

  /** Writing `start + i` to slot `slots[i]` of a permutation of slots gives
      the inverse permutation, shifted by `start`. */
  lemma PlaceInverse(slots: seq<nat>, start: nat)
    requires AllBelow(slots, |slots|)
    requires Injective(slots)
    requires forall s :: 0 <= s < |slots| ==> Hits(slots, s)
    ensures forall i :: 0 <= i < |slots| ==> Place(slots, start)[slots[i]] == start + i
    ensures forall s :: 0 <= s < |slots| ==>
      start <= Place(slots, start)[s] < start + |slots| && slots[Place(slots, start)[s] - start] == s
  {
    var p := Place(slots, start);
    ScatterSpec(Zeros(|slots|), slots, Ids(start, |slots|));
    forall s | 0 <= s < |slots|
      ensures start <= p[s] < start + |slots| && slots[p[s] - start] == s
    {
      assert Hits(slots, s);
      var i :| 0 <= i < |slots| && slots[i] == s;
      assert p[s] == start + i;
    }
  }

  /** The cell-ordered particle array of a legal interleaving: every slot
      holds an active unsorted index. */
  function CellOrder(cells: seq<nat>, ranks: seq<nat>, start: nat): (r: seq<nat>)
    requires ValidRanks(cells, ranks)
    ensures |r| == |cells|
    ensures forall s :: 0 <= s < |r| ==> start <= r[s] < start + |cells|
  {
    SlotsPermutation(cells, ranks);
    PlaceInverse(SlotsOf(cells, ranks), start);
    Place(SlotsOf(cells, ranks), start)
  }

  /** Reading the cell-ordered array gives back the slot: the particle stored
      in slot `s` has slot `s`, so no unsorted index is stored twice. */
  lemma CellOrderSlots(cells: seq<nat>, ranks: seq<nat>, start: nat)
    requires ValidRanks(cells, ranks)
    ensures forall s :: 0 <= s < |cells| ==>
      SlotsOf(cells, ranks)[CellOrder(cells, ranks, start)[s] - start] == s
    ensures Injective(CellOrder(cells, ranks, start))
  {
    var slots := SlotsOf(cells, ranks);
    SlotsPermutation(cells, ranks);
    PlaceInjective(slots, start);
    assert CellOrder(cells, ranks, start) == Place(slots, start);
  }

  /** The inverse of a permutation of slots is itself injective. */
  lemma PlaceInjective(slots: seq<nat>, start: nat)
    requires AllBelow(slots, |slots|)
    requires Injective(slots)
    requires forall s :: 0 <= s < |slots| ==> Hits(slots, s)
    ensures forall s :: 0 <= s < |slots| ==>
      start <= Place(slots, start)[s] < start + |slots| && slots[Place(slots, start)[s] - start] == s
    ensures Injective(Place(slots, start))
  {
    PlaceInverse(slots, start);
    var r := Place(slots, start);
    forall a, b | 0 <= a < |r| && 0 <= b < |r| && a != b
      ensures r[a] != r[b]
    {
      assert slots[r[a] - start] == a;
      assert slots[r[b] - start] == b;
    }
  }

  /** Particle `i` sits at its slot of the cell-ordered array. */
  lemma CellOrderPlaces(cells: seq<nat>, ranks: seq<nat>, start: nat)
    requires ValidRanks(cells, ranks)
    ensures forall i :: 0 <= i < |cells| ==>
      SlotsOf(cells, ranks)[i] < |cells| && CellOrder(cells, ranks, start)[SlotsOf(cells, ranks)[i]] == start + i
  {
    var slots := SlotsOf(cells, ranks);
    SlotsPermutation(cells, ranks);
    PlaceInverse(slots, start);
    assert CellOrder(cells, ranks, start) == Place(slots, start);
  }

  /** Buckets cover the cell-ordered array exactly once: slot `s` lies in the
      bucket of cell `c` if and only if the particle stored there is in cell `c`. */
  lemma BucketsPartitionSlots(cells: seq<nat>, ranks: seq<nat>, start: nat)
    requires ValidRanks(cells, ranks)
    ensures forall s, c :: 0 <= s < |cells| ==>
      (InBucket(cells, c, s) <==> cells[CellOrder(cells, ranks, start)[s] - start] == c)
  {
    var slots := SlotsOf(cells, ranks);
    var p := CellOrder(cells, ranks, start);
    SlotsPermutation(cells, ranks);
    CellOrderSlots(cells, ranks, start);
    forall s, c | 0 <= s < |cells|
      ensures InBucket(cells, c, s) <==> cells[p[s] - start] == c
    {
      var i := p[s] - start;
      assert slots[i] == s;
      var d := cells[i];
      assert InBucket(cells, d, s);
      if c < d {
        CountBelowStep(cells, c);
        CountBelowMonotone(cells, c + 1, d);
      } else if d < c {
        CountBelowStep(cells, d);
        CountBelowMonotone(cells, d + 1, c);
      }
    }
  }

  /** The bucket of cell `c` in the cell-ordered array: it fits in the
      array, and it holds only particles of `c`, each of them once. */
  lemma BucketContents(cells: seq<nat>, ranks: seq<nat>, start: nat, c: nat)
    requires ValidRanks(cells, ranks)
    ensures CountBelow(cells, c) + Count(cells, c) <= |cells|
    ensures forall s: nat :: InBucket(cells, c, s) ==>
      s < |cells| && cells[CellOrder(cells, ranks, start)[s] - start] == c
    ensures forall s1: nat, s2: nat :: InBucket(cells, c, s1) && InBucket(cells, c, s2) && s1 != s2 ==>
      s1 < |cells| && s2 < |cells| && CellOrder(cells, ranks, start)[s1] != CellOrder(cells, ranks, start)[s2]
  {
    CountBelowStep(cells, c);
    CountBelowAtMostLength(cells, c + 1);
    BucketsPartitionSlots(cells, ranks, start);
    assert Injective(CellOrder(cells, ranks, start)) by {
      CellOrderSlots(cells, ranks, start);
    }
  }

  /** Element `e` of the bucket of cell `c` in the cell-ordered array. */
  function BucketElement(cells: seq<nat>, ranks: seq<nat>, start: nat, c: nat, e: nat): nat
    requires ValidRanks(cells, ranks)
    requires CountBelow(cells, c) + e < |cells|
  {
    CellOrder(cells, ranks, start)[CountBelow(cells, c) + e]
  }

  /** Element `e` of the bucket of cell `c` is an active particle of `c`. */
  lemma BucketElementIn(cells: seq<nat>, ranks: seq<nat>, start: nat, c: nat, e: nat)
    requires ValidRanks(cells, ranks)
    requires e < Count(cells, c)
    ensures CountBelow(cells, c) + e < |cells|
    ensures start <= BucketElement(cells, ranks, start, c, e) < start + |cells|
    ensures cells[BucketElement(cells, ranks, start, c, e) - start] == c
  {
    BucketContents(cells, ranks, start, c);
    var s: nat := CountBelow(cells, c) + e;
    assert InBucket(cells, c, s);
  }

  /** Active particle `i` is element `e` of the bucket of its cell. */
  lemma BucketElementOf(cells: seq<nat>, ranks: seq<nat>, start: nat, i: nat) returns (e: nat)
    requires ValidRanks(cells, ranks)
    requires i < |cells|
    ensures e < Count(cells, cells[i])
    ensures CountBelow(cells, cells[i]) + e < |cells|
    ensures BucketElement(cells, ranks, start, cells[i], e) == start + i
  {
    var c := cells[i];
    SlotsPermutation(cells, ranks);
    CellOrderPlaces(cells, ranks, start);
    var s := SlotsOf(cells, ranks)[i];
    assert InBucket(cells, c, s);
    e := s - CountBelow(cells, c);
  }

  /** Every particle of cell `c` is stored in the bucket of `c`. */
  lemma BucketComplete(cells: seq<nat>, ranks: seq<nat>, start: nat, c: nat)
    requires ValidRanks(cells, ranks)
    ensures forall i :: 0 <= i < |cells| && cells[i] == c ==>
      exists s: nat :: InBucket(cells, c, s) && s < |cells| && CellOrder(cells, ranks, start)[s] == start + i
  {
    SlotsPermutation(cells, ranks);
    CellOrderPlaces(cells, ranks, start);
    forall i | 0 <= i < |cells| && cells[i] == c
      ensures exists s: nat :: InBucket(cells, c, s) && s < |cells| && CellOrder(cells, ranks, start)[s] == start + i
    {
      var s := SlotsOf(cells, ranks)[i];
      assert InBucket(cells, c, s);
    }
  }

  /** `unsortedToSortedIndex`, resized to the whole input of `n` particles:
      entry `s2u[s]` receives `s`; entries outside the active range keep their
      previous value. The entries the resize adds are uninitialised device
      memory; the model fills them with 0 and no contract relies on it. */
  function UnsortedToSorted(prev: seq<nat>, n: nat, s2u: seq<nat>): (r: seq<nat>)
    requires AllBelow(s2u, n)
    ensures |r| == n
  {
    Scatter(Resize(prev, n, 0), s2u, Ids(0, |s2u|))
  }

  /** Round trip of the two index maps, for any sorted-to-unsorted map that
      is a bijection onto the active range: every sorted slot maps back to
      itself, every active unsorted index maps back to itself, and inactive
      entries the map already had keep their previous value. */
  lemma IndexMapsInverse(prev: seq<nat>, n: nat, s2u: seq<nat>, start: nat)
    requires start + |s2u| <= n
    requires forall s :: 0 <= s < |s2u| ==> start <= s2u[s] < start + |s2u|
    requires Injective(s2u)
    requires forall u :: start <= u < start + |s2u| ==> Hits(s2u, u)
    ensures AllBelow(s2u, n)
    ensures forall s :: 0 <= s < |s2u| ==> UnsortedToSorted(prev, n, s2u)[s2u[s]] == s
    ensures forall u :: start <= u < start + |s2u| ==>
      UnsortedToSorted(prev, n, s2u)[u] < |s2u| && s2u[UnsortedToSorted(prev, n, s2u)[u]] == u
    ensures forall u :: 0 <= u < n && u < |prev| && !(start <= u < start + |s2u|) ==>
      UnsortedToSorted(prev, n, s2u)[u] == prev[u]
  {
    var u2s := UnsortedToSorted(prev, n, s2u);
    ScatterSpec(Resize(prev, n, 0), s2u, Ids(0, |s2u|));
    forall u | start <= u < start + |s2u|
      ensures u2s[u] < |s2u| && s2u[u2s[u]] == u
    {
      assert Hits(s2u, u);
      var s :| 0 <= s < |s2u| && s2u[s] == u;
    }
  }

  /** Rebuilding the unsorted-to-sorted map from its own previous value
      leaves it unchanged. */
  lemma CellOrderMapStable(prev: seq<nat>, n: nat, cells: seq<nat>, ranks: seq<nat>, start: nat)
    requires ValidRanks(cells, ranks)
    requires start + |cells| <= n
    ensures AllBelow(CellOrder(cells, ranks, start), n)
    ensures var s2u := CellOrder(cells, ranks, start);
      UnsortedToSorted(UnsortedToSorted(prev, n, s2u), n, s2u) == UnsortedToSorted(prev, n, s2u)
  {
    var s2u := CellOrder(cells, ranks, start);
    CellOrderSlots(cells, ranks, start);
    CellOrderOnto(cells, ranks, start);
    IndexMapsInverse(prev, n, s2u, start);
    var u2s := UnsortedToSorted(prev, n, s2u);
    assert Resize(u2s, n, 0) == u2s;
    ScatterStable(u2s, s2u, Ids(0, |s2u|));
  }

  /** The cell-ordered array is a bijection onto the active range. */
  lemma CellOrderOnto(cells: seq<nat>, ranks: seq<nat>, start: nat)
    requires ValidRanks(cells, ranks)
    ensures forall u :: start <= u < start + |cells| ==> Hits(CellOrder(cells, ranks, start), u)
  {
    var r := CellOrder(cells, ranks, start);
    CellOrderPlaces(cells, ranks, start);
    forall u | start <= u < start + |cells|
      ensures Hits(r, u)
    {
      assert r[SlotsOf(cells, ranks)[u - start]] == u;
    }
  }

  /** `reorderParticles` on a payload: sorted slot `s` receives the element
      of unsorted index `s2u[s]`. */
  function Reorder<T>(v: seq<T>, s2u: seq<nat>): (r: seq<T>)
    requires AllBelow(s2u, |v|)
    ensures |r| == |s2u|
  {
    seq(|s2u|, s requires 0 <= s < |s2u| => v[s2u[s]])
  }

  /** Reading a reordered payload through the unsorted-to-sorted map gives
      back the original element of every active particle. */
  lemma ReorderRestores<T>(v: seq<T>, cells: seq<nat>, ranks: seq<nat>, start: nat, prev: seq<nat>)
    requires ValidRanks(cells, ranks)
    requires start + |cells| <= |v|
    ensures AllBelow(CellOrder(cells, ranks, start), |v|)
    ensures forall u :: start <= u < start + |cells| ==>
      UnsortedToSorted(prev, |v|, CellOrder(cells, ranks, start))[u] < |cells| &&
      Reorder(v, CellOrder(cells, ranks, start))[UnsortedToSorted(prev, |v|, CellOrder(cells, ranks, start))[u]] == v[u]
  {
    CellOrderSlots(cells, ranks, start);
    CellOrderOnto(cells, ranks, start);
    IndexMapsInverse(prev, |v|, CellOrder(cells, ranks, start), start);
  }
}

=== FILE: scan.dfy ===
/** The exclusive prefix sum used three times per construction: over the
    per-cell particle counts, over the domain flags and over the sparse
    per-cell neighbour counts. */
module Scan {
  import opened Seqs

  /** Entry `i` is the sum of all entries before `i`. */
  function ExclusiveScan(a: seq<nat>): (r: seq<nat>)
    ensures |r| == |a|
    ensures |a| > 0 ==> r[0] == 0
    ensures forall i :: 0 <= i < |a| - 1 ==> r[i + 1] == r[i] + a[i]
  {
    assert forall i :: 0 <= i < |a| - 1 ==> a[..i + 1][..i] == a[..i];
    seq(|a|, i requires 0 <= i < |a| => Sum(a[..i]))
  }

  /** The last entry of the scan plus the last input is the whole sum; when
      the last input is a zero pad, the last entry alone is the total. */
  lemma ScanLast(a: seq<nat>)
    requires |a| > 0
    ensures ExclusiveScan(a)[|a| - 1] + a[|a| - 1] == Sum(a)
    ensures a[|a| - 1] == 0 ==> ExclusiveScan(a)[|a| - 1] == Sum(a)
  {
  }

  /** The scan never decreases. */
  lemma {:induction false} ScanMonotone(a: seq<nat>, i: nat, j: nat)
    requires i <= j < |a|
    ensures ExclusiveScan(a)[i] <= ExclusiveScan(a)[j]
    decreases j - i
  {
    if i < j {
      ScanMonotone(a, i, j - 1);
    }
  }

  /** Appending a zero pad keeps every earlier entry and puts the total in
      the new last entry. */
  lemma ScanPadded(a: seq<nat>)
    ensures |ExclusiveScan(a + [0])| == |a| + 1
    ensures forall i :: 0 <= i < |a| ==> ExclusiveScan(a + [0])[i] == ExclusiveScan(a)[i]
    ensures ExclusiveScan(a + [0])[|a|] == Sum(a)
  {
    var b := a + [0];
    forall i | 0 <= i < |a|
      ensures ExclusiveScan(b)[i] == ExclusiveScan(a)[i]
    {
      assert b[..i] == a[..i];
    }
    assert b[..|a|] == a;
  }

  /** In-place scan as `openfpm::scan` does it when input and output buffers
      coincide: one running total, each entry overwritten by the total of the
      entries before it. */
  method ScanInPlace(a: seq<nat>) returns (r: seq<nat>)
    ensures r == ExclusiveScan(a)
  {
    r := a;
    var total := 0;
    var i := 0;
    while i < |a|
      invariant 0 <= i <= |a| && |r| == |a|
      invariant forall k :: 0 <= k < i ==> r[k] == Sum(a[..k])
      invariant forall k :: i <= k < |a| ==> r[k] == a[k]
      invariant total == Sum(a[..i])
    {
      assert a[..i + 1][..i] == a[..i];
      var x := r[i];
      r := r[i := total];
      total := total + x;
      i := i + 1;
    }
  }

  /** Position `ExclusiveScan(lengths)[k] + m` of the flattened table is
      element `m` of run `k`: each run starts at the scan of the run lengths. */
  lemma {:induction false} FlattenAt<T>(ss: seq<seq<T>>, k: nat, m: nat)
    requires k < |ss| && m < |ss[k]|
    ensures ExclusiveScan(Lengths(ss))[k] + m < |Flatten(ss)|
    ensures Flatten(ss)[ExclusiveScan(Lengths(ss))[k] + m] == ss[k][m]
  {
    var init := ss[..|ss| - 1];
    var lens := Lengths(ss);
    FlattenLength(init);
    assert lens[..|ss| - 1] == Lengths(init);
    if k == |ss| - 1 {
      assert ExclusiveScan(lens)[k] == Sum(Lengths(init));
    } else {
      FlattenAt(init, k, m);
      assert lens[..k] == Lengths(init)[..k];
      assert ExclusiveScan(lens)[k] == ExclusiveScan(Lengths(init))[k];
    }
  }
}

=== FILE: seqs.dfy ===
/** Sequence helpers shared by the cell-list model: device-vector resize,
    scattered writes (the shape of every "write slot i" kernel), injectivity
    and a pigeonhole argument, sums and flattening. */
module Seqs {

  /** A buffer of `n` zeroed entries (`resize(n)` followed by `fill<0>(0)`). */
  function Zeros(n: nat): (r: seq<nat>)
    ensures |r| == n
    ensures forall i :: 0 <= i < n ==> r[i] == 0
  {
    seq(n, _ => 0)
  }

  /** Model of the device vector's `resize`: the common prefix is kept and
      slots that did not exist before read as `fill`. */
  function Resize<T>(s: seq<T>, n: nat, fill: T): (r: seq<T>)
    ensures |r| == n
    ensures forall i :: 0 <= i < n && i < |s| ==> r[i] == s[i]
  {
    if n <= |s| then s[..n] else s + seq(n - |s|, _ => fill)
  }

  /** The indices `start, start+1, ..., start+n-1`. */
  function Ids(start: nat, n: nat): (r: seq<nat>)
    ensures |r| == n
    ensures forall i :: 0 <= i < n ==> r[i] == start + i
  {
    seq(n, i => start + i)
  }

  function Sum(a: seq<nat>): nat
  {
    if |a| == 0 then 0 else Sum(a[..|a| - 1]) + a[|a| - 1]
  }

  predicate Injective(s: seq<nat>)
  {
    forall i, j :: 0 <= i < |s| && 0 <= j < |s| && i != j ==> s[i] != s[j]
  }

  predicate StrictlyIncreasing(s: seq<nat>)
  {
    forall i, j :: 0 <= i < j < |s| ==> s[i] < s[j]
  }

  predicate AllBelow(s: seq<nat>, bound: nat)
  {
    forall i :: 0 <= i < |s| ==> s[i] < bound
  }

  /** `s` takes the value `v` somewhere. */
  predicate Hits(s: seq<nat>, v: nat)
  {
    exists i :: 0 <= i < |s| && s[i] == v
  }

  /** Sequential counterpart of a data-parallel kernel in which thread `k`
      writes `val[k]` into slot `idx[k]` of `base`. */
  function Scatter(base: seq<nat>, idx: seq<nat>, val: seq<nat>): (r: seq<nat>)
    requires |idx| == |val|
    requires AllBelow(idx, |base|)
    ensures |r| == |base|
    decreases |idx|
  {
    if |idx| == 0 then base
    else Scatter(base[idx[0] := val[0]], idx[1..], val[1..])
  }

  /** With pairwise distinct target slots the order of the writes does not
      matter: every target slot holds its thread's value and every other slot
      keeps the base value. */
  lemma {:induction false} ScatterSpec(base: seq<nat>, idx: seq<nat>, val: seq<nat>)
    requires |idx| == |val|
    requires AllBelow(idx, |base|)
    requires Injective(idx)
    ensures forall k :: 0 <= k < |idx| ==> Scatter(base, idx, val)[idx[k]] == val[k]
    ensures forall j :: 0 <= j < |base| && !Hits(idx, j) ==> Scatter(base, idx, val)[j] == base[j]
    decreases |idx|
  {
    if |idx| > 0 {
      var b := base[idx[0] := val[0]];
      var idx', val' := idx[1..], val[1..];
      assert Injective(idx') by {
        forall i, j | 0 <= i < |idx'| && 0 <= j < |idx'| && i != j
          ensures idx'[i] != idx'[j]
        {
          assert idx'[i] == idx[i + 1] && idx'[j] == idx[j + 1];
        }
      }
      ScatterSpec(b, idx', val');
      var r := Scatter(base, idx, val);
      assert r == Scatter(b, idx', val');
      forall k | 0 <= k < |idx|
        ensures r[idx[k]] == val[k]
      {
        if k == 0 {
          forall i | 0 <= i < |idx'|
            ensures idx'[i] != idx[0]
          {
            assert idx'[i] == idx[i + 1];
          }
        } else {
          assert idx'[k - 1] == idx[k];
        }
      }
      forall j | 0 <= j < |base| && !Hits(idx, j)
        ensures r[j] == base[j]
      {
        forall i | 0 <= i < |idx'|
          ensures idx'[i] != j
        {
          assert idx'[i] == idx[i + 1];
        }
        assert j != idx[0];
      }
    }
  }

  /** Scattering values that are already in place changes nothing. */
  lemma ScatterStable(base: seq<nat>, idx: seq<nat>, val: seq<nat>)
    requires |idx| == |val|
    requires AllBelow(idx, |base|)
    requires Injective(idx)
    requires forall k :: 0 <= k < |idx| ==> base[idx[k]] == val[k]
    ensures Scatter(base, idx, val) == base
  {
    ScatterSpec(base, idx, val);
    var r := Scatter(base, idx, val);
    forall j | 0 <= j < |base|
      ensures r[j] == base[j]
    {
      if Hits(idx, j) {
        var k :| 0 <= k < |idx| && idx[k] == j;
      }
    }
  }

  /** The image of an injective sequence has as many elements as the sequence. */
  lemma {:induction false} InjectiveImageSize(f: seq<nat>)
    requires Injective(f)
    ensures |set i | 0 <= i < |f| :: f[i]| == |f|
  {
    if |f| > 0 {
      var g := f[..|f| - 1];
      assert Injective(g) by {
        forall i, j | 0 <= i < |g| && 0 <= j < |g| && i != j
          ensures g[i] != g[j]
        {
          assert g[i] == f[i] && g[j] == f[j];
        }
      }
      InjectiveImageSize(g);
      var img := set i | 0 <= i < |f| :: f[i];
      var imgG := set i | 0 <= i < |g| :: g[i];
      assert img == imgG + {f[|f| - 1]} by {
        forall x | x in img
          ensures x in imgG + {f[|f| - 1]}
        {
          var i :| 0 <= i < |f| && f[i] == x;
          if i < |g| {
            assert g[i] == x;
          }
        }
        forall x | x in imgG
          ensures x in img
        {
          var i :| 0 <= i < |g| && g[i] == x;
          assert f[i] == x;
        }
      }
      assert f[|f| - 1] !in imgG by {
        forall i | 0 <= i < |g|
          ensures g[i] != f[|f| - 1]
        {
          assert g[i] == f[i];
        }
      }
    }
  }

  lemma SubsetSize(a: set<nat>, b: set<nat>)
    requires a <= b
    ensures |a| <= |b|
  {
    assert b == a + (b - a);
    assert a * (b - a) == {};
  }

  /** Pigeonhole: an injective sequence of `n` values below `n` hits every
      value below `n`. */
  lemma InjectiveOnto(f: seq<nat>)
    requires AllBelow(f, |f|)
    requires Injective(f)
    ensures forall v :: 0 <= v < |f| ==> Hits(f, v)
  {
    var ids := Ids(0, |f|);
    var img := set i | 0 <= i < |f| :: f[i];
    var rng := set i | 0 <= i < |ids| :: ids[i];
    InjectiveImageSize(f);
    InjectiveImageSize(ids);
    assert img <= rng by {
      forall x | x in img
        ensures x in rng
      {
        var i :| 0 <= i < |f| && f[i] == x;
        assert ids[x] == x;
      }
    }
    forall v | 0 <= v < |f|
      ensures Hits(f, v)
    {
      assert ids[v] == v;
      assert v in rng;
      if v !in img {
        SubsetSize(img, rng - {v});
      }
      var i :| 0 <= i < |f| && f[i] == v;
    }
  }

  /** Concatenation of a sequence of runs, in order. */
  function Flatten<T>(ss: seq<seq<T>>): seq<T>
  {
    if |ss| == 0 then [] else Flatten(ss[..|ss| - 1]) + ss[|ss| - 1]
  }

  function Lengths<T>(ss: seq<seq<T>>): (r: seq<nat>)
    ensures |r| == |ss|
    ensures forall k :: 0 <= k < |ss| ==> r[k] == |ss[k]|
  {
    seq(|ss|, k requires 0 <= k < |ss| => |ss[k]|)
  }

  lemma {:induction false} FlattenLength<T>(ss: seq<seq<T>>)
    ensures |Flatten(ss)| == Sum(Lengths(ss))
  {
    if |ss| > 0 {
      var init := ss[..|ss| - 1];
      FlattenLength(init);
      assert Lengths(ss)[..|ss| - 1] == Lengths(init);
    }
  }

  /** Lists of at most `b` elements each flatten to at most `|ss| * b`. */
  lemma {:induction false} FlattenBound<T>(ss: seq<seq<T>>, b: nat)
    requires forall k :: 0 <= k < |ss| ==> |ss[k]| <= b
    ensures |Flatten(ss)| <= |ss| * b
  {
    if |ss| > 0 {
      var init := ss[..|ss| - 1];
      FlattenBound(init, b);
      assert |ss[|ss| - 1]| <= b;
      assert (|ss| - 1) * b + b == |ss| * b;
    }
  }
}

=== FILE: sparse.dfy ===
/** The sparse cell list (`CellList_gpu<..., true>`): the active particles'
    cell ids are inserted into a sparse vector, whose flush sorts the
    particles by cell and values each occupied cell with the start of its
    segment; then every occupied cell gets the list of particle ranges of
    its occupied stencil neighbours. */
module SparseCellList {
  import opened Seqs
  import opened Scan
  import opened Counting
  import opened Placement
  import opened Domain
  import opened Geometry
  import opened BuildInputs
  import opened SparseVector
  import opened SparseCells

  /** `unsigned int`, the parameter type of the sparse `setBoxNN`. */
  newtype uint32 = x: int | 0 <= x < 0x1_0000_0000

  /** The builder's state, one field per member of the class. */
  datatype SparseState = SparseState(
    decomposer: Decomposer,
    cellIndexLocalIndexToPart: seq<nat>,
    cellIndex: seq<nat>,
    vecSparseCellIndexPartIndex: SparseVec,
    neighborCellCount: seq<nat>,
    neighborPartIndexFromTo: seq<Range>,
    boxNeighborNumber: nat,
    boxNeighborCellOffset: seq<int>,
    sortedToUnsortedIndex: seq<nat>,
    indexSorted: seq<nat>,
    unsortedToSortedIndex: seq<nat>,
    unitCellP2: seq<real>,
    numCellDim: seq<int>,
    cellPadDim: seq<int>,
    nDecRefRedec: nat,
    ghostMarker: nat)

  /** Number of cells of the padded grid. */
  function NumCells(st: SparseState): nat
  {
    GridCells(st.decomposer.gridSize)
  }

  /** `constructNeighborCellOffset`: the box stencil of `n` cells per side. */
  function ConstructNeighborCellOffset(st: SparseState, n: nat): (r: SparseState)
    ensures |r.boxNeighborCellOffset| == Pow(2 * n + 1, |st.decomposer.gridSize|)
    ensures r.(boxNeighborCellOffset := st.boxNeighborCellOffset) == st
  {
    BoxStencilShape(n, Strides(st.decomposer.gridSize));
    st.(boxNeighborCellOffset := BoxStencil(n, Strides(st.decomposer.gridSize)))
  }

  /** `InitializeStructures`: record the grid's divisions and padding and
      build the stencil of one cell per side. Unlike the dense variant no
      buffer is sized here; the cell total is not used. */
  function InitializeStructures(st: SparseState, div: seq<nat>, totNCell: nat, pad: nat): (r: SparseState)
    ensures r.numCellDim == div && r.cellPadDim == seq(|div|, _ => pad)
    ensures r.unitCellP2 == st.decomposer.cellBoxP2
    ensures r.boxNeighborNumber == 1
    ensures |r.boxNeighborCellOffset| == Pow(3, |st.decomposer.gridSize|)
    ensures r.(numCellDim := st.numCellDim, unitCellP2 := st.unitCellP2, cellPadDim := st.cellPadDim,
               boxNeighborNumber := st.boxNeighborNumber, boxNeighborCellOffset := st.boxNeighborCellOffset) == st
  {
    var st1 := st.(
      numCellDim := seq(|div|, i requires 0 <= i < |div| => div[i]),
      unitCellP2 := st.decomposer.cellBoxP2,
      cellPadDim := seq(|div|, _ => pad),
      boxNeighborNumber := 1);
    ConstructNeighborCellOffset(st1, 1)
  }

  /** `Initialize`: the decomposer configured by `setDimensions` (outside the
      model) is installed, then the structures are set up from its grid. */
  function Initialize(st: SparseState, decomposer: Decomposer, pad: nat): (r: SparseState)
    ensures r.decomposer == decomposer && r.numCellDim == decomposer.gridSize
    ensures r.boxNeighborNumber == 1
    ensures |r.boxNeighborCellOffset| == Pow(3, |decomposer.gridSize|)
    ensures r.(decomposer := st.decomposer, numCellDim := st.numCellDim, unitCellP2 := st.unitCellP2,
               cellPadDim := st.cellPadDim, boxNeighborNumber := st.boxNeighborNumber,
               boxNeighborCellOffset := st.boxNeighborCellOffset) == st
  {
    var st1 := st.(decomposer := decomposer);
    InitializeStructures(st1, decomposer.gridSize, GridCells(decomposer.gridSize), pad)
  }

  /** `construct_sparse`. `cellOf` holds the cell id of every input particle
      (the position transform is outside the model) and `ranks` the order the
      flush gives the particles inside each cell's segment, any order being
      legal. The flush records a particle by its index inside the active
      range, so the cell-ordered array holds indices relative to `start`. */
  function ConstructSparse(st: SparseState, cellOf: seq<nat>, ranks: seq<nat>, ghostMarker: nat,
                           start: nat, stop: nat, opt: ConstructOpt): (r: SparseState)
    requires ActiveRange(cellOf, start, stop, NumCells(st))
    requires ValidRanks(ActiveCells(cellOf, start, stop), ranks)
    ensures |r.cellIndex| == ResolveStop(stop, |cellOf|) - start
    ensures r.decomposer == st.decomposer && r.ghostMarker == st.ghostMarker
    ensures r.nDecRefRedec == st.nDecRefRedec && r.boxNeighborNumber == st.boxNeighborNumber
    ensures r.boxNeighborCellOffset == st.boxNeighborCellOffset
    ensures r.unitCellP2 == st.unitCellP2 && r.numCellDim == st.numCellDim && r.cellPadDim == st.cellPadDim
  {
    var n := |cellOf|;
    var stop' := ResolveStop(stop, n);
    var st1 := st.(cellIndex := Zeros(stop' - start));
    if NoThreads(stop' - start) || n == 0 || stop' == 0 then
      // no particles
      st1
    else
      var cells := ActiveCells(cellOf, start, stop);
      // fill_cellIndex, then insert and flush: the cell-ordered array and
      // one key per occupied cell valued with its segment start
      var c2p := CellOrder(cells, ranks, 0);
      var sv := Flush(cells, NumCells(st));
      // countNeighborCells, the in-place scan, fillNeighborCellList
      var lists := NeighborLists(sv, st.boxNeighborCellOffset, |c2p|);
      var s2u := c2p;
      st1.(
        cellIndex := cells,
        cellIndexLocalIndexToPart := c2p,
        vecSparseCellIndexPartIndex := sv,
        neighborCellCount := ExclusiveScan(Lengths(lists) + [0]),
        neighborPartIndexFromTo := Flatten(lists),
        sortedToUnsortedIndex := s2u,
        unsortedToSortedIndex := UnsortedToSorted(st.unsortedToSortedIndex, n, s2u),
        indexSorted := if opt == Full then DomainSlots(s2u, ghostMarker) else st.indexSorted)
  }

  // ---------------------------------------------------------------------
  // Properties of a construction

  /** No particles (`vPos.size() == 0` or `stop == 0`): `cellIndex` is
      resized to `stop - start` zeros (none when `stop == 0`) and nothing else
      is touched, the sparse vector and the neighbour table included. */
  lemma SparseConstructEarly(st: SparseState, cellOf: seq<nat>, ranks: seq<nat>, ghostMarker: nat,
                             start: nat, stop: nat, opt: ConstructOpt)
    requires ActiveRange(cellOf, start, stop, NumCells(st))
    requires ValidRanks(ActiveCells(cellOf, start, stop), ranks)
    requires |cellOf| == 0 || ResolveStop(stop, |cellOf|) == 0
    ensures ConstructSparse(st, cellOf, ranks, ghostMarker, start, stop, opt)
      == st.(cellIndex := Zeros(ResolveStop(stop, |cellOf|) - start))
    ensures ResolveStop(stop, |cellOf|) == 0 ==>
      ConstructSparse(st, cellOf, ranks, ghostMarker, start, stop, opt) == st.(cellIndex := [])
  {
  }

  /** An empty active range inside a non-empty input (`0 < start == stop`)
      runs the whole pipeline: no key, a neighbour count buffer of a single
      zero, an empty neighbour table and empty sorted arrays, the
      unsorted-to-sorted map resized to the input with its previous entries
      kept, and an empty domain list. */
  lemma SparseConstructEmptyRange(st: SparseState, cellOf: seq<nat>, ranks: seq<nat>, ghostMarker: nat,
                                  start: nat, stop: nat, opt: ConstructOpt)
    requires ActiveRange(cellOf, start, stop, NumCells(st))
    requires ValidRanks(ActiveCells(cellOf, start, stop), ranks)
    requires 0 < start == ResolveStop(stop, |cellOf|) <= |cellOf|
    ensures var r := ConstructSparse(st, cellOf, ranks, ghostMarker, start, stop, opt);
      r.vecSparseCellIndexPartIndex == SparseVec([], [], Background) &&
      r.neighborCellCount == [0] && r.neighborPartIndexFromTo == [] &&
      r.cellIndex == [] && r.cellIndexLocalIndexToPart == [] && r.sortedToUnsortedIndex == [] &&
      |r.unsortedToSortedIndex| == |cellOf| &&
      (forall u :: 0 <= u < |cellOf| && u < |st.unsortedToSortedIndex| ==>
        r.unsortedToSortedIndex[u] == st.unsortedToSortedIndex[u]) &&
      (opt == Full ==> r.indexSorted == [])
  {
    var cells := ActiveCells(cellOf, start, stop);
    assert cells == [];
    NothingOccupied(cells, NumCells(st));
    var sv := Flush(cells, NumCells(st));
    assert sv.keys == [] && sv.values == [];
    assert NeighborLists(sv, st.boxNeighborCellOffset, 0) == [];
    assert Lengths<Range>([]) + [0] == [0];
    var u2s := UnsortedToSorted(st.unsortedToSortedIndex, |cellOf|, []);
    ScatterSpec(Resize(st.unsortedToSortedIndex, |cellOf|, 0), [], []);
    assert u2s == Resize(st.unsortedToSortedIndex, |cellOf|, 0);
  }

  lemma {:induction false} NothingOccupied(cells: seq<nat>, k: nat)
    requires cells == []
    ensures OccupiedBelow(cells, k) == []
  {
    if k > 0 {
      NothingOccupied(cells, k - 1);
    }
  }

  /** The fields a construction with particles writes, spelled out. */
  lemma SparseConstructShape(st: SparseState, cellOf: seq<nat>, ranks: seq<nat>, ghostMarker: nat,
                             start: nat, stop: nat, opt: ConstructOpt)
    requires ActiveRange(cellOf, start, stop, NumCells(st))
    requires ValidRanks(ActiveCells(cellOf, start, stop), ranks)
    requires |cellOf| > 0 && ResolveStop(stop, |cellOf|) > 0
    ensures var r := ConstructSparse(st, cellOf, ranks, ghostMarker, start, stop, opt);
      var cells := ActiveCells(cellOf, start, stop);
      var c2p := CellOrder(cells, ranks, 0);
      var sv := Flush(cells, NumCells(st));
      var lists := NeighborLists(sv, st.boxNeighborCellOffset, |c2p|);
      AllBelow(cells, NumCells(st)) && AllBelow(c2p, |cellOf|) &&
      r.cellIndex == cells &&
      r.cellIndexLocalIndexToPart == c2p && r.sortedToUnsortedIndex == c2p &&
      r.vecSparseCellIndexPartIndex == sv &&
      r.neighborCellCount == ExclusiveScan(Lengths(lists) + [0]) &&
      r.neighborPartIndexFromTo == Flatten(lists) &&
      r.unsortedToSortedIndex == UnsortedToSorted(st.unsortedToSortedIndex, |cellOf|, c2p) &&
      r.indexSorted == (if opt == Full then DomainSlots(c2p, ghostMarker) else st.indexSorted)
  {
  }

  /** A construction with particles keeps the flushed occupancy of the
      active cells and their cell order. */
  lemma SparseBuilt(st: SparseState, cellOf: seq<nat>, ranks: seq<nat>, ghostMarker: nat,
                    start: nat, stop: nat, opt: ConstructOpt)
    requires ActiveRange(cellOf, start, stop, NumCells(st))
    requires ValidRanks(ActiveCells(cellOf, start, stop), ranks)
    requires |cellOf| > 0 && ResolveStop(stop, |cellOf|) > 0
    ensures var r := ConstructSparse(st, cellOf, ranks, ghostMarker, start, stop, opt);
      var cells := ActiveCells(cellOf, start, stop);
      r.vecSparseCellIndexPartIndex == Flush(cells, NumCells(st)) &&
      r.cellIndexLocalIndexToPart == CellOrder(cells, ranks, 0)
  {
  }

  /** The flushed sparse vector: its background is `(unsigned int)-1`, its
      keys are strictly increasing and are exactly the cells holding an
      active particle, each key's value is the number of active particles
      in lower cells (where its segment starts), there are no more keys than
      active particles whatever the size of the grid, no value is the
      background while fewer than `(unsigned int)-1` particles are active, and
      the neighbour count buffer has one entry per key plus one. */
  lemma SparseOccupiedCells(st: SparseState, cellOf: seq<nat>, ranks: seq<nat>, ghostMarker: nat,
                            start: nat, stop: nat, opt: ConstructOpt)
    requires ActiveRange(cellOf, start, stop, NumCells(st))
    requires ValidRanks(ActiveCells(cellOf, start, stop), ranks)
    requires |cellOf| > 0 && ResolveStop(stop, |cellOf|) > 0
    ensures var r := ConstructSparse(st, cellOf, ranks, ghostMarker, start, stop, opt);
      var sv := r.vecSparseCellIndexPartIndex;
      sv.background == Background && WellFormed(sv) &&
      (forall c: nat :: c in sv.keys <==>
        exists p :: start <= p < ResolveStop(stop, |cellOf|) && cellOf[p] == c) &&
      (forall k :: 0 <= k < |sv.keys| ==>
        sv.values[k] == CountBelow(ActiveCells(cellOf, start, stop), sv.keys[k])) &&
      |sv.keys| <= ResolveStop(stop, |cellOf|) - start &&
      (|r.cellIndexLocalIndexToPart| < Background ==>
        forall k :: 0 <= k < |sv.values| ==> sv.values[k] != Background) &&
      |r.neighborCellCount| == |sv.keys| + 1
  {
    var cells := ActiveCells(cellOf, start, stop);
    SparseConstructShape(st, cellOf, ranks, ghostMarker, start, stop, opt);
    FlushSpec(cells, NumCells(st));
    SliceHits(cellOf, start, ResolveStop(stop, |cellOf|), cells, Flush(cells, NumCells(st)).keys);
  }

  /** The keys of a slice's occupancy are the cells some particle of the
      slice is in, and there are no more of them than particles. */
  lemma SliceHits(cellOf: seq<nat>, start: nat, stop: nat, cells: seq<nat>, keys: seq<nat>)
    requires start <= stop <= |cellOf| && cells == cellOf[start..stop]
    requires forall c: nat :: c in keys <==> Hits(cells, c)
    ensures forall c: nat :: c in keys <==> exists p :: start <= p < stop && cellOf[p] == c
  {
    forall c: nat
      ensures c in keys <==> exists p :: start <= p < stop && cellOf[p] == c
    {
      if c in keys {
        var i :| 0 <= i < |cells| && cells[i] == c;
        assert cellOf[start + i] == c;
      }
      if exists p :: start <= p < stop && cellOf[p] == c {
        var p :| start <= p < stop && cellOf[p] == c;
        assert cells[p - start] == c;
      }
    }
  }

  /** The particles of one occupied cell: key `kk`'s value and the next key's
      value (or the array size after the last key) bound a segment of the
      cell-ordered array, `get` on the sparse vector returns the segment's
      start for that cell, and a sorted slot lies in the segment exactly when
      the particle stored there is in that cell. */
  lemma SparseSegment(st: SparseState, cellOf: seq<nat>, ranks: seq<nat>, ghostMarker: nat,
                      start: nat, stop: nat, opt: ConstructOpt, kk: nat)
    requires ActiveRange(cellOf, start, stop, NumCells(st))
    requires ValidRanks(ActiveCells(cellOf, start, stop), ranks)
    requires |cellOf| > 0 && ResolveStop(stop, |cellOf|) > 0
    requires kk < |ConstructSparse(st, cellOf, ranks, ghostMarker, start, stop, opt).vecSparseCellIndexPartIndex.keys|
    ensures var r := ConstructSparse(st, cellOf, ranks, ghostMarker, start, stop, opt);
      var sv := r.vecSparseCellIndexPartIndex;
      var c2p := r.cellIndexLocalIndexToPart;
      Get(sv, sv.keys[kk]) == sv.values[kk] &&
      sv.values[kk] < SegmentEnd(sv, kk, |c2p|) <= |c2p|
    ensures var r := ConstructSparse(st, cellOf, ranks, ghostMarker, start, stop, opt);
      var sv := r.vecSparseCellIndexPartIndex;
      var c2p := r.cellIndexLocalIndexToPart;
      forall s :: 0 <= s < |c2p| ==>
        (sv.values[kk] <= s < SegmentEnd(sv, kk, |c2p|) <==> start + c2p[s] < |cellOf| && cellOf[start + c2p[s]] == sv.keys[kk])
  {
    SparseBuilt(st, cellOf, ranks, ghostMarker, start, stop, opt);
    SliceSegment(cellOf, start, stop, ranks, NumCells(st), kk);
  }

  /** The segment of key `kk` in the occupancy of the active cells, read in
      the whole array: the particle of slot `s` lies `start` further on. */
  lemma SliceSegment(cellOf: seq<nat>, start: nat, stop: nat, ranks: seq<nat>, numCells: nat, kk: nat)
    requires ActiveRange(cellOf, start, stop, numCells)
    requires ValidRanks(ActiveCells(cellOf, start, stop), ranks)
    requires |cellOf| > 0 && ResolveStop(stop, |cellOf|) > 0
    requires kk < |Flush(ActiveCells(cellOf, start, stop), numCells).keys|
    ensures var sv := Flush(ActiveCells(cellOf, start, stop), numCells);
      var c2p := CellOrder(ActiveCells(cellOf, start, stop), ranks, 0);
      Get(sv, sv.keys[kk]) == sv.values[kk] &&
      sv.values[kk] < SegmentEnd(sv, kk, |c2p|) <= |c2p| &&
      forall s :: 0 <= s < |c2p| ==>
        (sv.values[kk] <= s < SegmentEnd(sv, kk, |c2p|) <==>
          start + c2p[s] < |cellOf| && cellOf[start + c2p[s]] == sv.keys[kk])
  {
    var cells := ActiveCells(cellOf, start, stop);
    var c2p := CellOrder(cells, ranks, 0);
    assert AllBelow(cells, numCells);
    SegmentSlots(cells, ranks, numCells, kk);
    forall s | 0 <= s < |c2p|
      ensures start + c2p[s] < |cellOf| && cells[c2p[s]] == cellOf[start + c2p[s]]
    {
    }
  }

  /** The segment of key `kk` in the cell-ordered array holds exactly the
      particles of its cell. */
  lemma SegmentSlots(cells: seq<nat>, ranks: seq<nat>, numCells: nat, kk: nat)
    requires AllBelow(cells, numCells)
    requires ValidRanks(cells, ranks)
    requires kk < |Flush(cells, numCells).keys|
    ensures var sv := Flush(cells, numCells);
      Get(sv, sv.keys[kk]) == sv.values[kk] &&
      sv.values[kk] < SegmentEnd(sv, kk, |cells|) <= |cells| &&
      forall s :: 0 <= s < |cells| ==>
        (sv.values[kk] <= s < SegmentEnd(sv, kk, |cells|) <==> cells[CellOrder(cells, ranks, 0)[s]] == sv.keys[kk])
  {
    var sv := Flush(cells, numCells);
    FlushSpec(cells, numCells);
    FindUnique(sv.keys, kk);
    SegmentIsBucket(cells, numCells, kk);
    var c := sv.keys[kk];
    assert Hits(cells, c);
    CountHits(cells, c);
    BucketsPartitionSlots(cells, ranks, 0);
    BucketContents(cells, ranks, 0, c);
    forall s | 0 <= s < |cells|
      ensures InBucket(cells, c, s) <==> cells[CellOrder(cells, ranks, 0)[s]] == c
    {
      assert InBucket(cells, c, s) <==> cells[CellOrder(cells, ranks, 0)[s] - 0] == c;
    }
  }

  /** The neighbour count buffer is the exclusive scan of the per-key
      neighbour counts: it starts at 0, has one entry per key plus one, and
      its last entry, read back as the total, is the size of the neighbour
      table, which holds at most one range per key and stencil offset. */
  lemma SparseNeighborTotal(st: SparseState, cellOf: seq<nat>, ranks: seq<nat>, ghostMarker: nat,
                            start: nat, stop: nat, opt: ConstructOpt)
    requires ActiveRange(cellOf, start, stop, NumCells(st))
    requires ValidRanks(ActiveCells(cellOf, start, stop), ranks)
    requires |cellOf| > 0 && ResolveStop(stop, |cellOf|) > 0
    ensures var r := ConstructSparse(st, cellOf, ranks, ghostMarker, start, stop, opt);
      var keys := r.vecSparseCellIndexPartIndex.keys;
      |r.neighborCellCount| == |keys| + 1 && r.neighborCellCount[0] == 0 &&
      r.neighborCellCount[|keys|] == |r.neighborPartIndexFromTo| &&
      |r.neighborPartIndexFromTo| <= |keys| * |r.boxNeighborCellOffset| &&
      forall k :: 0 <= k < |keys| ==>
        r.neighborCellCount[k + 1] - r.neighborCellCount[k]
          == |NeighborIdxs(keys, keys[k], st.boxNeighborCellOffset)|
  {
    var cells := ActiveCells(cellOf, start, stop);
    SparseConstructShape(st, cellOf, ranks, ghostMarker, start, stop, opt);
    NeighborCounts(Flush(cells, NumCells(st)), st.boxNeighborCellOffset, |cells|);
    TableSize(Flush(cells, NumCells(st)), st.boxNeighborCellOffset, |cells|);
  }

  /** `rg` is the segment of an occupied cell one stencil offset away from
      occupied cell `k`. */
  predicate NeighborSegment(sv: SparseVec, stencil: seq<int>, k: nat, rg: Range, total: nat)
    requires |sv.values| == |sv.keys| && k < |sv.keys|
  {
    exists kk :: 0 <= kk < |sv.keys| && Reaches(stencil, sv.keys[k], sv.keys[kk]) &&
      rg == Range(sv.values[kk], SegmentEnd(sv, kk, total))
  }

  /** The run of occupied cell `k` in the neighbour table, entries
      `neighborCellCount[k]` to `neighborCellCount[k+1]`, lists the segment
      of every occupied cell one stencil offset away from cell `k`, and
      nothing else. */
  lemma SparseNeighborRun(st: SparseState, cellOf: seq<nat>, ranks: seq<nat>, ghostMarker: nat,
                          start: nat, stop: nat, opt: ConstructOpt, k: nat)
    requires ActiveRange(cellOf, start, stop, NumCells(st))
    requires ValidRanks(ActiveCells(cellOf, start, stop), ranks)
    requires |cellOf| > 0 && ResolveStop(stop, |cellOf|) > 0
    requires k < |ConstructSparse(st, cellOf, ranks, ghostMarker, start, stop, opt).vecSparseCellIndexPartIndex.keys|
    ensures var r := ConstructSparse(st, cellOf, ranks, ghostMarker, start, stop, opt);
      var sv := r.vecSparseCellIndexPartIndex;
      var ncc := r.neighborCellCount;
      var table := r.neighborPartIndexFromTo;
      var total := |r.cellIndexLocalIndexToPart|;
      |ncc| == |sv.keys| + 1 && ncc[k] <= ncc[k + 1] <= |table| &&
      (forall s :: ncc[k] <= s < ncc[k + 1] ==> NeighborSegment(sv, r.boxNeighborCellOffset, k, table[s], total)) &&
      (forall kk :: 0 <= kk < |sv.keys| && Reaches(r.boxNeighborCellOffset, sv.keys[k], sv.keys[kk]) ==>
        exists s :: ncc[k] <= s < ncc[k + 1] && table[s] == Range(sv.values[kk], SegmentEnd(sv, kk, total)))
  {
    var cells := ActiveCells(cellOf, start, stop);
    var r := ConstructSparse(st, cellOf, ranks, ghostMarker, start, stop, opt);
    SparseConstructShape(st, cellOf, ranks, ghostMarker, start, stop, opt);
    NeighborRunSound(cells, NumCells(st), st.boxNeighborCellOffset, k);
    NeighborRunComplete(cells, NumCells(st), st.boxNeighborCellOffset, k);
    TableRunSound(Flush(cells, NumCells(st)), st.boxNeighborCellOffset, |cells|, k);
    TableRunComplete(Flush(cells, NumCells(st)), st.boxNeighborCellOffset, |cells|, k);
  }

  /** The neighbour table, read between two consecutive scanned counts,
      holds only what run `k` of the neighbour lists holds. */
  lemma TableRunSound(sv: SparseVec, stencil: seq<int>, total: nat, k: nat)
    requires |sv.values| == |sv.keys| && k < |sv.keys|
    requires forall rg :: rg in NeighborLists(sv, stencil, total)[k] ==> NeighborSegment(sv, stencil, k, rg, total)
    ensures var lists := NeighborLists(sv, stencil, total);
      var ncc := ExclusiveScan(Lengths(lists) + [0]);
      |ncc| == |sv.keys| + 1 && ncc[k] <= ncc[k + 1] <= |Flatten(lists)| &&
      forall s :: ncc[k] <= s < ncc[k + 1] ==> NeighborSegment(sv, stencil, k, Flatten(lists)[s], total)
  {
    var lists := NeighborLists(sv, stencil, total);
    var ncc := ExclusiveScan(Lengths(lists) + [0]);
    var run := RunOfTable(lists, k);
    forall s | ncc[k] <= s < ncc[k + 1]
      ensures NeighborSegment(sv, stencil, k, Flatten(lists)[s], total)
    {
      assert Flatten(lists)[s] == run[s - ncc[k]];
      assert run[s - ncc[k]] in run;
    }
  }

  /** The neighbour table, read between two consecutive scanned counts,
      holds everything run `k` of the neighbour lists holds. */
  lemma TableRunComplete(sv: SparseVec, stencil: seq<int>, total: nat, k: nat)
    requires |sv.values| == |sv.keys| && k < |sv.keys|
    requires forall kk :: 0 <= kk < |sv.keys| && Reaches(stencil, sv.keys[k], sv.keys[kk]) ==>
      Range(sv.values[kk], SegmentEnd(sv, kk, total)) in NeighborLists(sv, stencil, total)[k]
    ensures var lists := NeighborLists(sv, stencil, total);
      var ncc := ExclusiveScan(Lengths(lists) + [0]);
      |ncc| == |sv.keys| + 1 &&
      forall kk :: 0 <= kk < |sv.keys| && Reaches(stencil, sv.keys[k], sv.keys[kk]) ==>
        exists s :: (ncc[k] <= s < ncc[k + 1] && s < |Flatten(lists)| &&
          Flatten(lists)[s] == Range(sv.values[kk], SegmentEnd(sv, kk, total)))
  {
    var lists := NeighborLists(sv, stencil, total);
    var ncc := ExclusiveScan(Lengths(lists) + [0]);
    TableTotal(lists);
    TableStep(lists, k);
    forall kk | 0 <= kk < |sv.keys| && Reaches(stencil, sv.keys[k], sv.keys[kk])
      ensures exists s :: (ncc[k] <= s < ncc[k + 1] && s < |Flatten(lists)| &&
        Flatten(lists)[s] == Range(sv.values[kk], SegmentEnd(sv, kk, total)))
    {
      var run := lists[k];
      var j :| 0 <= j < |run| && run[j] == Range(sv.values[kk], SegmentEnd(sv, kk, total));
      TableAt(lists, k, j);
    }
  }

  /** Run `k` of the neighbour lists names only segments of occupied cells
      one stencil offset away from cell `k`. */
  lemma NeighborRunSound(cells: seq<nat>, numCells: nat, stencil: seq<int>, k: nat)
    requires AllBelow(cells, numCells)
    requires k < |Flush(cells, numCells).keys|
    ensures forall rg :: rg in NeighborLists(Flush(cells, numCells), stencil, |cells|)[k] ==>
      NeighborSegment(Flush(cells, numCells), stencil, k, rg, |cells|)
  {
    var sv := Flush(cells, numCells);
    var run := NeighborRanges(sv, k, stencil, |cells|);
    assert NeighborLists(sv, stencil, |cells|)[k] == run;
    NeighborRangesSpec(cells, numCells, stencil, k);
    FlushSpec(cells, numCells);
    forall rg | rg in run
      ensures NeighborSegment(sv, stencil, k, rg, |cells|)
    {
      var c: nat :| Hits(cells, c) && Reaches(stencil, sv.keys[k], c) && rg == Bucket(cells, c);
      BucketSegment(cells, numCells, stencil, k, c);
    }
  }

  /** The bucket of an occupied cell one stencil offset away from cell `k`
      is that cell's segment. */
  lemma BucketSegment(cells: seq<nat>, numCells: nat, stencil: seq<int>, k: nat, c: nat)
    requires AllBelow(cells, numCells)
    requires k < |Flush(cells, numCells).keys|
    requires Hits(cells, c) && Reaches(stencil, Flush(cells, numCells).keys[k], c)
    ensures NeighborSegment(Flush(cells, numCells), stencil, k, Bucket(cells, c), |cells|)
  {
    var sv := Flush(cells, numCells);
    FlushSpec(cells, numCells);
    assert c in sv.keys;
    var kk :| 0 <= kk < |sv.keys| && sv.keys[kk] == c;
    SegmentIsBucket(cells, numCells, kk);
  }

  /** Run `k` of the neighbour lists names the segment of every occupied
      cell one stencil offset away from cell `k`. */
  lemma NeighborRunComplete(cells: seq<nat>, numCells: nat, stencil: seq<int>, k: nat)
    requires AllBelow(cells, numCells)
    requires k < |Flush(cells, numCells).keys|
    ensures var sv := Flush(cells, numCells);
      forall kk :: 0 <= kk < |sv.keys| && Reaches(stencil, sv.keys[k], sv.keys[kk]) ==>
        Range(sv.values[kk], SegmentEnd(sv, kk, |cells|)) in NeighborLists(sv, stencil, |cells|)[k]
  {
    var sv := Flush(cells, numCells);
    var run := NeighborRanges(sv, k, stencil, |cells|);
    assert NeighborLists(sv, stencil, |cells|)[k] == run;
    NeighborRangesSpec(cells, numCells, stencil, k);
    FlushSpec(cells, numCells);
    forall kk | 0 <= kk < |sv.keys| && Reaches(stencil, sv.keys[k], sv.keys[kk])
      ensures Range(sv.values[kk], SegmentEnd(sv, kk, |cells|)) in run
    {
      var c := sv.keys[kk];
      assert c in sv.keys;
      assert Hits(cells, c);
      assert Bucket(cells, c) in run;
      SegmentIsBucket(cells, numCells, kk);
      assert Bucket(cells, c) == Range(sv.values[kk], SegmentEnd(sv, kk, |cells|));
    }
  }

  /** Entries `ncc[k]` to `ncc[k+1]` of the flattened table are run `k`. */
  lemma RunOfTable(lists: seq<seq<Range>>, k: nat) returns (run: seq<Range>)
    requires k < |lists|
    ensures |ExclusiveScan(Lengths(lists) + [0])| == |lists| + 1
    ensures ExclusiveScan(Lengths(lists) + [0])[k] <= ExclusiveScan(Lengths(lists) + [0])[k + 1] <= |Flatten(lists)|
    ensures run == Flatten(lists)[ExclusiveScan(Lengths(lists) + [0])[k]..ExclusiveScan(Lengths(lists) + [0])[k + 1]]
    ensures run == lists[k]
  {
    TableTotal(lists);
    TableStep(lists, k);
    var ncc := ExclusiveScan(Lengths(lists) + [0]);
    run := Flatten(lists)[ncc[k]..ncc[k + 1]];
    forall j | 0 <= j < |lists[k]|
      ensures run[j] == lists[k][j]
    {
      TableAt(lists, k, j);
    }
  }

  /** Index maps: sorted-to-unsorted has `stop - start` entries and is the
      cell-ordered array of indices relative to `start`; unsorted-to-sorted
      covers the whole input; the two are inverse on `[0, stop - start)`; and
      the other entries unsorted-to-sorted already had keep their previous
      value (entries the resize adds are left unspecified). */
  lemma SparseIndexMaps(st: SparseState, cellOf: seq<nat>, ranks: seq<nat>, ghostMarker: nat,
                        start: nat, stop: nat, opt: ConstructOpt)
    requires ActiveRange(cellOf, start, stop, NumCells(st))
    requires ValidRanks(ActiveCells(cellOf, start, stop), ranks)
    requires |cellOf| > 0 && ResolveStop(stop, |cellOf|) > 0
    ensures var r := ConstructSparse(st, cellOf, ranks, ghostMarker, start, stop, opt);
      var m := ResolveStop(stop, |cellOf|) - start;
      |r.sortedToUnsortedIndex| == m &&
      |r.unsortedToSortedIndex| == |cellOf| &&
      r.sortedToUnsortedIndex == r.cellIndexLocalIndexToPart &&
      (forall s :: 0 <= s < m ==>
        r.sortedToUnsortedIndex[s] < m &&
        r.unsortedToSortedIndex[r.sortedToUnsortedIndex[s]] == s) &&
      (forall u :: 0 <= u < m ==>
        r.unsortedToSortedIndex[u] < m &&
        r.sortedToUnsortedIndex[r.unsortedToSortedIndex[u]] == u) &&
      (forall u :: m <= u < |cellOf| && u < |st.unsortedToSortedIndex| ==>
        r.unsortedToSortedIndex[u] == st.unsortedToSortedIndex[u])
  {
    var cells := ActiveCells(cellOf, start, stop);
    SparseConstructShape(st, cellOf, ranks, ghostMarker, start, stop, opt);
    CellOrderSlots(cells, ranks, 0);
    CellOrderOnto(cells, ranks, 0);
    IndexMapsInverse(st.unsortedToSortedIndex, |cellOf|, CellOrder(cells, ranks, 0), 0);
  }

  /** Domain list: with `opt == Full` it holds, in increasing order, exactly
      the sorted slots whose stored index is below the ghost marker passed to
      the construction; with any other option the previous list is kept. */
  lemma SparseDomainIds(st: SparseState, cellOf: seq<nat>, ranks: seq<nat>, ghostMarker: nat,
                        start: nat, stop: nat, opt: ConstructOpt)
    requires ActiveRange(cellOf, start, stop, NumCells(st))
    requires ValidRanks(ActiveCells(cellOf, start, stop), ranks)
    requires |cellOf| > 0 && ResolveStop(stop, |cellOf|) > 0
    ensures var r := ConstructSparse(st, cellOf, ranks, ghostMarker, start, stop, opt);
      var m := ResolveStop(stop, |cellOf|) - start;
      |r.sortedToUnsortedIndex| == m &&
      (opt == Full ==>
        StrictlyIncreasing(r.indexSorted) &&
        forall s :: s in r.indexSorted <==> 0 <= s < m && r.sortedToUnsortedIndex[s] < ghostMarker) &&
      (opt != Full ==> r.indexSorted == st.indexSorted)
  {
    var cells := ActiveCells(cellOf, start, stop);
    var r := ConstructSparse(st, cellOf, ranks, ghostMarker, start, stop, opt);
    var c2p := CellOrder(cells, ranks, 0);
    SparseConstructShape(st, cellOf, ranks, ghostMarker, start, stop, opt);
    assert r.sortedToUnsortedIndex == c2p;
    DomainSlotsSpec(c2p, ghostMarker);
    if opt == Full {
      assert r.indexSorted == DomainSlots(c2p, ghostMarker);
      forall s
        ensures s in r.indexSorted <==> 0 <= s < |cells| && c2p[s] < ghostMarker
      {
      }
    }
  }

  /** Construction rebuilds from scratch: running it twice with the same
      arguments gives the state of running it once. */
  lemma SparseConstructIdempotent(st: SparseState, cellOf: seq<nat>, ranks: seq<nat>, ghostMarker: nat,
                                  start: nat, stop: nat, opt: ConstructOpt)
    requires ActiveRange(cellOf, start, stop, NumCells(st))
    requires ValidRanks(ActiveCells(cellOf, start, stop), ranks)
    ensures var r := ConstructSparse(st, cellOf, ranks, ghostMarker, start, stop, opt);
      ActiveRange(cellOf, start, stop, NumCells(r)) &&
      ConstructSparse(r, cellOf, ranks, ghostMarker, start, stop, opt) == r
  {
    var r := ConstructSparse(st, cellOf, ranks, ghostMarker, start, stop, opt);
    assert NumCells(r) == NumCells(st);
    if |cellOf| > 0 && ResolveStop(stop, |cellOf|) > 0 {
      var cells := ActiveCells(cellOf, start, stop);
      var s2u := CellOrder(cells, ranks, 0);
      SparseConstructShape(st, cellOf, ranks, ghostMarker, start, stop, opt);
      SparseConstructShape(r, cellOf, ranks, ghostMarker, start, stop, opt);
      CellOrderMapStable(st.unsortedToSortedIndex, |cellOf|, cells, ranks, 0);
    }
  }

  // ---------------------------------------------------------------------
  // Bookkeeping

  /** `clear`: empties the cell-ordered array, the per-particle cell ids and
      the sorted-to-unsorted map; nothing else, the sparse vector, the
      neighbour table, the domain list and the unsorted-to-sorted map
      included, is cleared. */
  function Clear(st: SparseState): (r: SparseState)
    ensures |r.cellIndexLocalIndexToPart| == 0 && |r.cellIndex| == 0 && |r.sortedToUnsortedIndex| == 0
    ensures r.vecSparseCellIndexPartIndex == st.vecSparseCellIndexPartIndex
    ensures r.neighborCellCount == st.neighborCellCount && r.neighborPartIndexFromTo == st.neighborPartIndexFromTo
    ensures r.indexSorted == st.indexSorted && r.unsortedToSortedIndex == st.unsortedToSortedIndex
    ensures r.ghostMarker == st.ghostMarker && r.nDecRefRedec == st.nDecRefRedec
    ensures r.decomposer == st.decomposer && r.boxNeighborCellOffset == st.boxNeighborCellOffset
    ensures r.(cellIndexLocalIndexToPart := st.cellIndexLocalIndexToPart, cellIndex := st.cellIndex,
               sortedToUnsortedIndex := st.sortedToUnsortedIndex) == st
  {
    st.(cellIndexLocalIndexToPart := [], cellIndex := [], sortedToUnsortedIndex := [])
  }

  /** `get_gm`. */
  function GetGm(st: SparseState): nat
  {
    st.ghostMarker
  }

  /** `set_gm`: `get_gm` returns the value set, and nothing else changes. */
  function SetGm(st: SparseState, ghostMarker: nat): (r: SparseState)
    ensures GetGm(r) == ghostMarker
    ensures r.(ghostMarker := st.ghostMarker) == st
  {
    st.(ghostMarker := ghostMarker)
  }

  /** `get_ndec`. */
  function GetNdec(st: SparseState): nat
  {
    st.nDecRefRedec
  }

  /** `set_ndec`: `get_ndec` returns the value set, and nothing else changes. */
  function SetNdec(st: SparseState, nDecRefRedec: nat): (r: SparseState)
    ensures GetNdec(r) == nDecRefRedec
    ensures r.(nDecRefRedec := st.nDecRefRedec) == st
  {
    st.(nDecRefRedec := nDecRefRedec)
  }

  /** `setBoxNN`: records the per-side neighbour count, received as an
      `unsigned int`, and rebuilds the box stencil for it; a following
      `resetBoxNN` changes nothing. */
  function SetBoxNN(st: SparseState, n: uint32): (r: SparseState)
    ensures r.boxNeighborNumber == n as nat < 0x1_0000_0000
    ensures |r.boxNeighborCellOffset| == Pow(2 * (n as nat) + 1, |st.decomposer.gridSize|)
    ensures ResetBoxNN(r) == r
    ensures r.(boxNeighborNumber := st.boxNeighborNumber, boxNeighborCellOffset := st.boxNeighborCellOffset) == st
  {
    ConstructNeighborCellOffset(st.(boxNeighborNumber := n as nat), n as nat)
  }

  /** `resetBoxNN`: rebuilds the box stencil for the recorded neighbour count. */
  function ResetBoxNN(st: SparseState): (r: SparseState)
    ensures |r.boxNeighborCellOffset| == Pow(2 * st.boxNeighborNumber + 1, |st.decomposer.gridSize|)
    ensures r.(boxNeighborCellOffset := st.boxNeighborCellOffset) == st
  {
    ConstructNeighborCellOffset(st, st.boxNeighborNumber)
  }

  /** `setRadius`: the sparse cell list only reports that radius neighbourhoods
      are a dense feature; its state is unchanged. */
  function SetRadius(st: SparseState, radius: real): (r: SparseState)
    ensures r == st
  {
    st
  }

  /** `swap` with the neighbour count exchanged in full: every buffer, the
      box stencil, the cell geometry arrays, the ghost marker,
      `nDecRefRedec` and the neighbour count change places. */
  function Swap(a: SparseState, b: SparseState): (r: (SparseState, SparseState))
    ensures r == (b, a)
  {
    (a.(decomposer := b.decomposer, cellIndexLocalIndexToPart := b.cellIndexLocalIndexToPart,
        cellIndex := b.cellIndex, vecSparseCellIndexPartIndex := b.vecSparseCellIndexPartIndex,
        neighborCellCount := b.neighborCellCount, neighborPartIndexFromTo := b.neighborPartIndexFromTo,
        boxNeighborCellOffset := b.boxNeighborCellOffset, sortedToUnsortedIndex := b.sortedToUnsortedIndex,
        indexSorted := b.indexSorted, unsortedToSortedIndex := b.unsortedToSortedIndex,
        unitCellP2 := b.unitCellP2, numCellDim := b.numCellDim, cellPadDim := b.cellPadDim,
        ghostMarker := b.ghostMarker, nDecRefRedec := b.nDecRefRedec,
        boxNeighborNumber := b.boxNeighborNumber),
     b.(decomposer := a.decomposer, cellIndexLocalIndexToPart := a.cellIndexLocalIndexToPart,
        cellIndex := a.cellIndex, vecSparseCellIndexPartIndex := a.vecSparseCellIndexPartIndex,
        neighborCellCount := a.neighborCellCount, neighborPartIndexFromTo := a.neighborPartIndexFromTo,
        boxNeighborCellOffset := a.boxNeighborCellOffset, sortedToUnsortedIndex := a.sortedToUnsortedIndex,
        indexSorted := a.indexSorted, unsortedToSortedIndex := a.unsortedToSortedIndex,
        unitCellP2 := a.unitCellP2, numCellDim := a.numCellDim, cellPadDim := a.cellPadDim,
        ghostMarker := a.ghostMarker, nDecRefRedec := a.nDecRefRedec,
        boxNeighborNumber := a.boxNeighborNumber))
  }

  /** Swapping exchanges the two cell lists whole, so swapping twice restores
      both. */
  lemma SparseSwapSpec(a: SparseState, b: SparseState)
    ensures Swap(a, b) == (b, a)
    ensures Swap(Swap(a, b).0, Swap(a, b).1) == (a, b)
  {
  }

  /** The neighbour count as it comes back from the `int` temporary of
      `swap`: truncated to 32 bits, read as a signed value and converted
      back to a 64-bit `size_t`. */
  function ThroughInt(v: nat): (r: nat)
    ensures r < 0x1_0000_0000_0000_0000
    ensures v < 0x8000_0000 ==> r == v
  {
    var w := v % 0x1_0000_0000;
    if w < 0x8000_0000 then w else w + (0x1_0000_0000_0000_0000 - 0x1_0000_0000)
  }

  /** A `size_t` survives the `int` temporary exactly when it is below 2^31
      or is the conversion of a negative `int`. */
  lemma ThroughIntFixed(v: nat)
    requires v < 0x1_0000_0000_0000_0000
    ensures ThroughInt(v) == v <==> v < 0x8000_0000 || 0x1_0000_0000_0000_0000 - 0x8000_0000 <= v
  {
    var q := v / 0x1_0000_0000;
    var w := v % 0x1_0000_0000;
    assert v == q * 0x1_0000_0000 + w;
    assert q < 0x1_0000_0000;
    if 0x1_0000_0000_0000_0000 - 0x8000_0000 <= v {
      assert q == 0x1_0000_0000 - 1;
    } else if 0x8000_0000 <= v {
      if w >= 0x8000_0000 {
        assert q < 0x1_0000_0000 - 1;
      }
    }
  }

  /** `swap` as written: the neighbour count of `this` passes through an
      `int` temporary on its way to `clg`. */
  function SwapAsWritten(a: SparseState, b: SparseState): (r: (SparseState, SparseState))
    ensures r.0 == b
    ensures r.1 == a.(boxNeighborNumber := ThroughInt(a.boxNeighborNumber))
  {
    var (a', b') := Swap(a, b);
    (a', b'.(boxNeighborNumber := ThroughInt(a.boxNeighborNumber)))
  }

  /** The written `swap` agrees with the full exchange below 2^31 neighbours
      per side, and swapping twice then restores both lists. */
  lemma SwapAsWrittenSmall(a: SparseState, b: SparseState)
    requires a.boxNeighborNumber < 0x8000_0000 && b.boxNeighborNumber < 0x8000_0000
    ensures SwapAsWritten(a, b) == Swap(a, b)
    ensures SwapAsWritten(SwapAsWritten(a, b).0, SwapAsWritten(a, b).1) == (a, b)
  {
  }

  /** A neighbour count of 2^31 comes back from the temporary sign-extended
      to 2^64 - 2^31, so swapping twice does not restore the list. */
  lemma SwapAsWrittenCounterexample(a: SparseState, b: SparseState)
    requires a.boxNeighborNumber == 0x8000_0000
    ensures SwapAsWritten(a, b).1.boxNeighborNumber == 0x1_0000_0000_0000_0000 - 0x8000_0000
    ensures SwapAsWritten(SwapAsWritten(a, b).0, SwapAsWritten(a, b).1).0 != a
  {
  }

  /** Copy `operator=`: every member, the box stencil and its neighbour count
      included, is copied. */
  function Assign(dst: SparseState, src: SparseState): (r: SparseState)
    ensures r == src
  {
    dst.(decomposer := src.decomposer, cellIndexLocalIndexToPart := src.cellIndexLocalIndexToPart,
         cellIndex := src.cellIndex, vecSparseCellIndexPartIndex := src.vecSparseCellIndexPartIndex,
         neighborCellCount := src.neighborCellCount, neighborPartIndexFromTo := src.neighborPartIndexFromTo,
         boxNeighborCellOffset := src.boxNeighborCellOffset, sortedToUnsortedIndex := src.sortedToUnsortedIndex,
         indexSorted := src.indexSorted, unsortedToSortedIndex := src.unsortedToSortedIndex,
         unitCellP2 := src.unitCellP2, numCellDim := src.numCellDim, cellPadDim := src.cellPadDim,
         ghostMarker := src.ghostMarker, nDecRefRedec := src.nDecRefRedec,
         boxNeighborNumber := src.boxNeighborNumber)
  }

  /** Move assignment as the sparse list declares it: the move `operator=`
      takes an rvalue of `CellList_gpu<dim,T,Memory,transform_type>`, which the
      defaulted `is_sparse = false` makes the dense list. Moving one sparse list
      into another therefore selects the copy `operator=`, and the moved-from
      list keeps every buffer. Returns the new destination and the new source. */
  function MoveAssignAsWritten(dst: SparseState, src: SparseState): (r: (SparseState, SparseState))
    ensures r == (src, src)
  {
    (Assign(dst, src), src)
  }

  /** The declared move and the intended one part on the moved-from list: as
      written it still holds its own particle buffer, where the intended move
      would have handed it the destination's. */
  lemma MoveAsWrittenKeepsSource(dst: SparseState, src: SparseState)
    requires dst.cellIndexLocalIndexToPart != src.cellIndexLocalIndexToPart
    ensures MoveAssignAsWritten(dst, src).0 == MoveAssign(dst, src).0
    ensures MoveAssignAsWritten(dst, src).1.cellIndexLocalIndexToPart == src.cellIndexLocalIndexToPart
    ensures MoveAssign(dst, src).1.cellIndexLocalIndexToPart == dst.cellIndexLocalIndexToPart
    ensures MoveAssignAsWritten(dst, src).1 != MoveAssign(dst, src).1
  {
  }

  /** Move `operator=` as intended, with a parameter of the sparse list type:
      the decomposer, the buffers and the box stencil are swapped; the cell
      geometry arrays, the markers and the neighbour count are copied.
      Returns the new destination and the new source. */
  function MoveAssign(dst: SparseState, src: SparseState): (r: (SparseState, SparseState))
    ensures r.0 == src
    ensures r.1 == dst.(unitCellP2 := src.unitCellP2, numCellDim := src.numCellDim,
                        cellPadDim := src.cellPadDim, ghostMarker := src.ghostMarker,
                        nDecRefRedec := src.nDecRefRedec, boxNeighborNumber := src.boxNeighborNumber)
  {
    var (d, s) := Swap(dst, src);
    (d, s.(unitCellP2 := src.unitCellP2, numCellDim := src.numCellDim, cellPadDim := src.cellPadDim,
           ghostMarker := src.ghostMarker, nDecRefRedec := src.nDecRefRedec,
           boxNeighborNumber := src.boxNeighborNumber))
  }

  /** Moving gives the destination the same state as copying, and leaves in
      the source the destination's former decomposer, buffers and stencil
      next to its own geometry arrays, markers and neighbour count. */
  lemma SparseMoveAssignSpec(dst: SparseState, src: SparseState)
    ensures MoveAssign(dst, src).0 == Assign(dst, src)
    ensures MoveAssign(dst, src).1 == dst.(unitCellP2 := src.unitCellP2, numCellDim := src.numCellDim,
      cellPadDim := src.cellPadDim, ghostMarker := src.ghostMarker, nDecRefRedec := src.nDecRefRedec,
      boxNeighborNumber := src.boxNeighborNumber)
  {
  }
}

=== FILE: sparse_cells.dfy ===
/** The sparse builder's cell structures: the flushed sparse vector (one key
    per occupied cell, valued with the start of the cell's segment in the
    cell-ordered array) and, for every occupied cell, the list of particle
    ranges of its occupied neighbour cells (kernels `countNeighborCells` and
    `fillNeighborCellList`). */
module SparseCells {
  import opened Seqs
  import opened Scan
  import opened Counting
  import opened SparseVector

  /** One entry of `neighborPartIndexFrom_To`: a half-open range of sorted slots. */
  datatype Range = Range(from: nat, to: nat)

  /** The occupied cells below `k`, in increasing order. */
  function OccupiedBelow(cells: seq<nat>, k: nat): seq<nat>
  {
    if k == 0 then [] else OccupiedBelow(cells, k - 1) + (if Count(cells, k - 1) > 0 then [k - 1] else [])
  }

  lemma {:induction false} OccupiedBelowSpec(cells: seq<nat>, k: nat)
    ensures StrictlyIncreasing(OccupiedBelow(cells, k))
    ensures forall c: nat :: c in OccupiedBelow(cells, k) <==> c < k && Count(cells, c) > 0
  {
    if k > 0 {
      OccupiedBelowSpec(cells, k - 1);
      var prev := OccupiedBelow(cells, k - 1);
      var tail: seq<nat> := if Count(cells, k - 1) > 0 then [k - 1] else [];
      var d := OccupiedBelow(cells, k);
      assert d == prev + tail;
      forall i, j | 0 <= i < j < |d|
        ensures d[i] < d[j]
      {
        if j < |prev| {
          assert d[i] == prev[i] && d[j] == prev[j];
        } else {
          assert d[i] == prev[i] && prev[i] in prev;
        }
      }
      forall c: nat
        ensures c in d <==> c < k && Count(cells, c) > 0
      {
        assert c in d <==> c in prev || c in tail;
      }
    }
  }

  /** There are no more occupied cells below `k` than particles below `k`. */
  lemma {:induction false} OccupiedBelowCount(cells: seq<nat>, k: nat)
    ensures |OccupiedBelow(cells, k)| <= CountBelow(cells, k)
  {
    if k > 0 {
      OccupiedBelowCount(cells, k - 1);
      CountBelowStep(cells, k - 1);
    }
  }

  /** `flush_vd<sstart_<0>>` after every active particle inserted its cell id:
      the occupied cells as keys, each valued with the number of particles in
      lower cells, which is where its segment starts. There is one value per
      key and at most one key per particle, whatever the size of the grid. */
  function Flush(cells: seq<nat>, numCells: nat): (r: SparseVec)
    ensures |r.values| == |r.keys|
    ensures |r.keys| <= |cells|
    ensures r.background == Background
  {
    OccupiedBelowCount(cells, numCells);
    CountBelowAtMostLength(cells, numCells);
    var keys := OccupiedBelow(cells, numCells);
    SparseVec(keys, seq(|keys|, k requires 0 <= k < |keys| => CountBelow(cells, keys[k])), Background)
  }

  /** The flushed vector is well formed, holds a key exactly for each cell some
      active particle is in, and values each key with the start of its
      segment; when fewer particles than the background are active no value
      is the background. */
  lemma FlushSpec(cells: seq<nat>, numCells: nat)
    requires AllBelow(cells, numCells)
    ensures WellFormed(Flush(cells, numCells)) && |Flush(cells, numCells).keys| <= |cells|
    ensures forall c: nat :: c in Flush(cells, numCells).keys <==> Hits(cells, c)
    ensures forall k :: 0 <= k < |Flush(cells, numCells).keys| ==>
      Flush(cells, numCells).values[k] == CountBelow(cells, Flush(cells, numCells).keys[k])
    ensures |cells| < Background ==>
      forall k :: 0 <= k < |Flush(cells, numCells).values| ==> Flush(cells, numCells).values[k] != Background
  {
    var sv := Flush(cells, numCells);
    OccupiedBelowSpec(cells, numCells);
    forall c: nat
      ensures c in sv.keys <==> Hits(cells, c)
    {
      CountHits(cells, c);
      if Hits(cells, c) {
        var i :| 0 <= i < |cells| && cells[i] == c;
        assert c < numCells;
      }
    }
    forall k | 0 <= k < |sv.values|
      ensures sv.values[k] <= |cells|
    {
      CountBelowAtMostLength(cells, sv.keys[k]);
    }
  }

  /** Looking up a particle's cell in the flushed vector and adding its local
      rank gives its counting-sort slot. */
  lemma SparseSlotAddress(cells: seq<nat>, ranks: seq<nat>, numCells: nat)
    requires AllBelow(cells, numCells)
    requires |ranks| == |cells|
    ensures forall i :: 0 <= i < |cells| ==>
      Get(Flush(cells, numCells), cells[i]) + ranks[i] == CountBelow(cells, cells[i]) + ranks[i]
  {
    var sv := Flush(cells, numCells);
    FlushSpec(cells, numCells);
    forall i | 0 <= i < |cells|
      ensures Get(sv, cells[i]) == CountBelow(cells, cells[i])
    {
      assert Hits(cells, cells[i]);
      var k :| 0 <= k < |sv.keys| && sv.keys[k] == cells[i];
      FindUnique(sv.keys, k);
    }
  }

  /** End of the segment of key `kk`: the next key's start, or the size of the
      cell-ordered array after the last key. */
  function SegmentEnd(sv: SparseVec, kk: nat, total: nat): nat
    requires |sv.values| == |sv.keys|
    requires kk < |sv.keys|
  {
    if kk + 1 < |sv.keys| then sv.values[kk + 1] else total
  }

  /** The segment of every key is exactly the bucket of its cell. */
  lemma SegmentIsBucket(cells: seq<nat>, numCells: nat, kk: nat)
    requires AllBelow(cells, numCells)
    requires kk < |Flush(cells, numCells).keys|
    ensures var sv := Flush(cells, numCells);
      sv.values[kk] == CountBelow(cells, sv.keys[kk]) &&
      SegmentEnd(sv, kk, |cells|) == CountBelow(cells, sv.keys[kk]) + Count(cells, sv.keys[kk])
  {
    var sv := Flush(cells, numCells);
    var c := sv.keys[kk];
    FlushSpec(cells, numCells);
    CountBelowStep(cells, c);
    if kk + 1 < |sv.keys| {
      var d := sv.keys[kk + 1];
      assert c < d;
      forall i | 0 <= i < |cells|
        ensures cells[i] < c + 1 || d <= cells[i]
      {
        if c < cells[i] {
          assert Hits(cells, cells[i]);
          var j :| 0 <= j < |sv.keys| && sv.keys[j] == cells[i];
          assert kk < j;
        }
      }
      CountBelowGap(cells, c + 1, d);
    } else {
      forall i | 0 <= i < |cells|
        ensures cells[i] < c + 1
      {
        assert Hits(cells, cells[i]);
        var j :| 0 <= j < |sv.keys| && sv.keys[j] == cells[i];
      }
      CountBelowAtMostLength(cells, c + 1);
    }
  }

  /** Cell `to` is one stencil offset away from cell `from`. */
  predicate Reaches(stencil: seq<int>, from: nat, to: nat)
  {
    to as int - from as int in stencil
  }

  /** Positions (in the sparse vector) of the occupied cells reached from
      `key` through the stencil, in stencil order: `countNeighborCells`
      counts them and `fillNeighborCellList` lists them. A target below zero
      is never stored. */
  function NeighborIdxs(keys: seq<nat>, key: nat, stencil: seq<int>): (r: seq<nat>)
    ensures AllBelow(r, |keys|)
    ensures |r| <= |stencil|
  {
    if |stencil| == 0 then []
    else
      var f := Find(keys, key + stencil[|stencil| - 1]);
      NeighborIdxs(keys, key, stencil[..|stencil| - 1]) + (if f >= 0 then [f] else [])
  }

  /** A position is listed exactly when some stencil offset leads from `key`
      to the key stored there. */
  lemma {:induction false} NeighborIdxsSpec(keys: seq<nat>, key: nat, stencil: seq<int>)
    requires StrictlyIncreasing(keys)
    ensures forall kk: nat :: kk in NeighborIdxs(keys, key, stencil) <==>
      kk < |keys| && Reaches(stencil, key, keys[kk])
  {
    if |stencil| > 0 {
      var init := stencil[..|stencil| - 1];
      var o := stencil[|stencil| - 1];
      NeighborIdxsSpec(keys, key, init);
      var f := Find(keys, key + o);
      var tail: seq<nat> := if f >= 0 then [f] else [];
      assert NeighborIdxs(keys, key, stencil) == NeighborIdxs(keys, key, init) + tail;
      assert stencil == init + [o];
      forall kk: nat
        ensures kk in NeighborIdxs(keys, key, stencil) <==> kk < |keys| && Reaches(stencil, key, keys[kk])
      {
        assert kk in NeighborIdxs(keys, key, stencil) <==> kk in NeighborIdxs(keys, key, init) || kk in tail;
        if kk < |keys| {
          assert Reaches(stencil, key, keys[kk]) <==> Reaches(init, key, keys[kk]) || keys[kk] - key == o;
          if keys[kk] - key == o {
            FindUnique(keys, kk);
          }
        }
      }
    }
  }

  /** `neighborPartIndexFrom_To` entries of the occupied cell at position `k`. */
  function NeighborRanges(sv: SparseVec, k: nat, stencil: seq<int>, total: nat): (r: seq<Range>)
    requires |sv.values| == |sv.keys|
    requires k < |sv.keys|
    ensures |r| == |NeighborIdxs(sv.keys, sv.keys[k], stencil)|
  {
    var idxs := NeighborIdxs(sv.keys, sv.keys[k], stencil);
    seq(|idxs|, j requires 0 <= j < |idxs| => Range(sv.values[idxs[j]], SegmentEnd(sv, idxs[j], total)))
  }

  /** The neighbour lists of all occupied cells, one run per key. */
  function NeighborLists(sv: SparseVec, stencil: seq<int>, total: nat): (r: seq<seq<Range>>)
    requires |sv.values| == |sv.keys|
    ensures |r| == |sv.keys|
  {
    seq(|sv.keys|, k requires 0 <= k < |sv.keys| => NeighborRanges(sv, k, stencil, total))
  }

  /** The sorted-slot range of the particles in cell `c`. */
  function Bucket(cells: seq<nat>, c: nat): Range
  {
    Range(CountBelow(cells, c), CountBelow(cells, c) + Count(cells, c))
  }

  /** Every range listed for an occupied cell is the bucket of an occupied
      cell one stencil offset away, and every occupied cell one stencil offset
      away has its bucket listed. */
  lemma NeighborRangesSpec(cells: seq<nat>, numCells: nat, stencil: seq<int>, k: nat)
    requires AllBelow(cells, numCells)
    requires k < |Flush(cells, numCells).keys|
    ensures forall r :: r in NeighborRanges(Flush(cells, numCells), k, stencil, |cells|) ==>
      exists c: nat :: (Hits(cells, c) && Reaches(stencil, Flush(cells, numCells).keys[k], c) && r == Bucket(cells, c))
    ensures forall c: nat :: Hits(cells, c) && Reaches(stencil, Flush(cells, numCells).keys[k], c) ==>
      Bucket(cells, c) in NeighborRanges(Flush(cells, numCells), k, stencil, |cells|)
  {
    var ranges := NeighborRanges(Flush(cells, numCells), k, stencil, |cells|);
    forall r | r in ranges
      ensures exists c: nat :: (Hits(cells, c) && Reaches(stencil, Flush(cells, numCells).keys[k], c) && r == Bucket(cells, c))
    {
      var j :| 0 <= j < |ranges| && ranges[j] == r;
      var c := NeighborRangeSound(cells, numCells, stencil, k, j);
    }
    forall c: nat | Hits(cells, c) && Reaches(stencil, Flush(cells, numCells).keys[k], c)
      ensures Bucket(cells, c) in ranges
    {
      var j := NeighborRangeComplete(cells, numCells, stencil, k, c);
    }
  }

  lemma NeighborRangeSound(cells: seq<nat>, numCells: nat, stencil: seq<int>, k: nat, j: nat) returns (c: nat)
    requires AllBelow(cells, numCells)
    requires k < |Flush(cells, numCells).keys|
    requires j < |NeighborRanges(Flush(cells, numCells), k, stencil, |cells|)|
    ensures Hits(cells, c) && Reaches(stencil, Flush(cells, numCells).keys[k], c)
    ensures NeighborRanges(Flush(cells, numCells), k, stencil, |cells|)[j] == Bucket(cells, c)
  {
    var sv := Flush(cells, numCells);
    var idxs := NeighborIdxs(sv.keys, sv.keys[k], stencil);
    FlushSpec(cells, numCells);
    NeighborIdxsSpec(sv.keys, sv.keys[k], stencil);
    var kk := idxs[j];
    assert kk in idxs;
    SegmentIsBucket(cells, numCells, kk);
    c := sv.keys[kk];
    assert c in sv.keys;
  }

  lemma NeighborRangeComplete(cells: seq<nat>, numCells: nat, stencil: seq<int>, k: nat, c: nat) returns (j: nat)
    requires AllBelow(cells, numCells)
    requires k < |Flush(cells, numCells).keys|
    requires Hits(cells, c) && Reaches(stencil, Flush(cells, numCells).keys[k], c)
    ensures j < |NeighborRanges(Flush(cells, numCells), k, stencil, |cells|)|
    ensures NeighborRanges(Flush(cells, numCells), k, stencil, |cells|)[j] == Bucket(cells, c)
  {
    var sv := Flush(cells, numCells);
    var idxs := NeighborIdxs(sv.keys, sv.keys[k], stencil);
    FlushSpec(cells, numCells);
    NeighborIdxsSpec(sv.keys, sv.keys[k], stencil);
    assert c in sv.keys;
    var kk :| 0 <= kk < |sv.keys| && sv.keys[kk] == c;
    assert kk in idxs;
    j :| 0 <= j < |idxs| && idxs[j] == kk;
    SegmentIsBucket(cells, numCells, kk);
  }

  /** Layout of `neighborPartIndexFrom_To`: the scanned neighbour counts
      (with the extra zero slot) start run `k` at entry `k`, consecutive
      entries differ by the run length, the last entry is the table size, and
      the table holds run `k` at those positions. */
  lemma NeighborTableLayout(lists: seq<seq<Range>>)
    ensures |ExclusiveScan(Lengths(lists) + [0])| == |lists| + 1
    ensures ExclusiveScan(Lengths(lists) + [0])[|lists|] == |Flatten(lists)|
    ensures forall k {:trigger lists[k]} :: 0 <= k < |lists| ==>
      ExclusiveScan(Lengths(lists) + [0])[k + 1] == ExclusiveScan(Lengths(lists) + [0])[k] + |lists[k]| &&
      ExclusiveScan(Lengths(lists) + [0])[k + 1] <= |Flatten(lists)|
    ensures forall k, j :: 0 <= k < |lists| && 0 <= j < |lists[k]| ==>
      ExclusiveScan(Lengths(lists) + [0])[k] + j < |Flatten(lists)| &&
      Flatten(lists)[ExclusiveScan(Lengths(lists) + [0])[k] + j] == lists[k][j]
  {
    TableTotal(lists);
    forall k {:trigger lists[k]} | 0 <= k < |lists|
      ensures ExclusiveScan(Lengths(lists) + [0])[k + 1] == ExclusiveScan(Lengths(lists) + [0])[k] + |lists[k]|
      ensures ExclusiveScan(Lengths(lists) + [0])[k + 1] <= |Flatten(lists)|
    {
      TableStep(lists, k);
    }
    forall k, j | 0 <= k < |lists| && 0 <= j < |lists[k]|
      ensures ExclusiveScan(Lengths(lists) + [0])[k] + j < |Flatten(lists)|
      ensures Flatten(lists)[ExclusiveScan(Lengths(lists) + [0])[k] + j] == lists[k][j]
    {
      TableAt(lists, k, j);
    }
  }

  /** The scanned neighbour counts of a sparse vector: one entry per key
      plus one, starting at 0, consecutive entries differing by the number of
      occupied neighbours of the key, and ending at the table size. */
  lemma NeighborCounts(sv: SparseVec, stencil: seq<int>, total: nat)
    requires |sv.values| == |sv.keys|
    ensures var ncc := ExclusiveScan(Lengths(NeighborLists(sv, stencil, total)) + [0]);
      |ncc| == |sv.keys| + 1 && ncc[0] == 0 &&
      ncc[|sv.keys|] == |Flatten(NeighborLists(sv, stencil, total))| &&
      forall k :: 0 <= k < |sv.keys| ==> ncc[k + 1] - ncc[k] == |NeighborIdxs(sv.keys, sv.keys[k], stencil)|
  {
    var lists := NeighborLists(sv, stencil, total);
    TableTotal(lists);
    forall k | 0 <= k < |sv.keys|
      ensures ExclusiveScan(Lengths(lists) + [0])[k + 1] - ExclusiveScan(Lengths(lists) + [0])[k]
        == |NeighborIdxs(sv.keys, sv.keys[k], stencil)|
    {
      TableStep(lists, k);
    }
  }

  /** The neighbour table holds at most one range per key and stencil offset. */
  lemma TableSize(sv: SparseVec, stencil: seq<int>, total: nat)
    requires |sv.values| == |sv.keys|
    ensures |Flatten(NeighborLists(sv, stencil, total))| <= |sv.keys| * |stencil|
  {
    var lists := NeighborLists(sv, stencil, total);
    forall k | 0 <= k < |lists|
      ensures |lists[k]| <= |stencil|
    {
      assert lists[k] == NeighborRanges(sv, k, stencil, total);
    }
    FlattenBound(lists, |stencil|);
  }

  lemma TableTotal(lists: seq<seq<Range>>)
    ensures |ExclusiveScan(Lengths(lists) + [0])| == |lists| + 1
    ensures ExclusiveScan(Lengths(lists) + [0])[|lists|] == |Flatten(lists)|
  {
    ScanPadded(Lengths(lists));
    FlattenLength(lists);
  }

  lemma TableStep(lists: seq<seq<Range>>, k: nat)
    requires k < |lists|
    ensures ExclusiveScan(Lengths(lists) + [0])[k + 1] == ExclusiveScan(Lengths(lists) + [0])[k] + |lists[k]|
    ensures ExclusiveScan(Lengths(lists) + [0])[k + 1] <= |Flatten(lists)|
  {
    var a := Lengths(lists) + [0];
    assert a[k] == |lists[k]|;
    TableTotal(lists);
    ScanMonotone(a, k + 1, |lists|);
  }

  lemma TableAt(lists: seq<seq<Range>>, k: nat, j: nat)
    requires k < |lists| && j < |lists[k]|
    ensures ExclusiveScan(Lengths(lists) + [0])[k] + j < |Flatten(lists)|
    ensures Flatten(lists)[ExclusiveScan(Lengths(lists) + [0])[k] + j] == lists[k][j]
  {
    var a := Lengths(lists);
    ScanPadded(a);
    FlattenAt(lists, k, j);
    assert ExclusiveScan(a + [0])[k] == ExclusiveScan(a)[k];
  }
}

=== FILE: sparse_vector.dfy ===
/** The part of the GPU sparse vector (`vector_sparse_gpu`) the sparse cell
    list relies on: sorted distinct keys with one value each and a background
    value returned for keys that are not stored. */
module SparseVector {
  import opened Seqs

  /** `(unsigned int)-1`, the background the sparse builder installs. */
  const Background: nat := 0xFFFF_FFFF

  datatype SparseVec = SparseVec(keys: seq<nat>, values: seq<nat>, background: nat)

  /** Keys are strictly increasing and each has a value. */
  predicate WellFormed(sv: SparseVec)
  {
    |sv.values| == |sv.keys| && StrictlyIncreasing(sv.keys)
  }

  /** Position of `key` among the stored keys, or -1. */
  function Find(keys: seq<nat>, key: int): (r: int)
    ensures -1 <= r < |keys|
    ensures r >= 0 ==> keys[r] == key
    ensures r == -1 <==> forall i :: 0 <= i < |keys| ==> keys[i] != key
  {
    if |keys| == 0 then -1
    else if keys[|keys| - 1] == key then |keys| - 1
    else Find(keys[..|keys| - 1], key)
  }

  /** With strictly increasing keys the position is the only one holding the key. */
  lemma FindUnique(keys: seq<nat>, i: nat)
    requires StrictlyIncreasing(keys)
    requires i < |keys|
    ensures Find(keys, keys[i]) == i
  {
    var r := Find(keys, keys[i]);
    assert r >= 0;
    assert keys[r] == keys[i];
  }

  /** `get(key)`: the stored value, or the background. */
  function Get(sv: SparseVec, key: int): nat
    requires |sv.values| == |sv.keys|
  {
    var k := Find(sv.keys, key);
    if k >= 0 then sv.values[k] else sv.background
  }

  /** When no stored value equals the background, `get` returns the background
      exactly for the keys that are not stored, and the key's own value
      otherwise. */
  lemma GetSpec(sv: SparseVec, key: int)
    requires WellFormed(sv)
    requires forall k :: 0 <= k < |sv.values| ==> sv.values[k] != sv.background
    ensures Get(sv, key) == sv.background <==> forall i :: 0 <= i < |sv.keys| ==> sv.keys[i] != key
    ensures forall i :: 0 <= i < |sv.keys| && sv.keys[i] == key ==> Get(sv, key) == sv.values[i]
  {
    forall i | 0 <= i < |sv.keys| && sv.keys[i] == key
      ensures Get(sv, key) == sv.values[i]
    {
      FindUnique(sv.keys, i);
    }
  }
}
